=== FILE: README.md ===
# Private-domain assistant demo: a Dafny model

This project models the behavioural core of a React demo of a marketing assistant ("365私域管家").
The assistant lives in a chat drawer.

- It plays four canned **demo scenarios**. Each one is a script of fake typing, user messages,
  assistant replies with task pipelines and cards, and rewrites of the last reply. The operator can
  pause, resume and stop a scenario at 100 ms granularity.
- When no demo plays, a **fallback router** answers free text by keyword. It advances task
  pipelines on timers, and handles the confirm/reject buttons and navigation buttons.
- A **composer** offers `/` skill and `@` audience pickers with keyboard navigation.
- The chat page derives its **tabs** from the URL.
- A **floating ball** cycles through idle → executing → attention while the drawer is closed.

Modules, one per file:

| file | module | what it holds |
|---|---|---|
| wrappers.dfy | Wrappers | `Option`, the object-spread field `Update`, `Result` for code paths that throw |
| text.dfy | Text | `includes`, `trim`/`trimStart`/`trimEnd`, `split(' ')`/`join(' ')`, last word |
| messages.dfy | Messages | the records of `src/types.ts`, message construction, patches, the task-pipeline invariant |
| store.dfy | Store | the three ways the log changes: append, rewrite the last entry, reset |
| playback.dfy | Playback | the demo flags, pause/stop, and the 100 ms `sleep` loop |
| script.dfy | Script | scenario steps, their expansion into primitives, and the interpreter |
| catalog.dfy | Catalog | scenarios s1–s4 as data |
| demo.dfy | Demo | `runDemo` with its `finally`, the new-session button, the scenario picker |
| router.dfy | Router | `handleSendMessage`, `processAgentLogic`, confirm/reject, `handleActionClick` |
| composer.dfy | Composer | the input area with its two pickers |
| tabs.dfy | Tabs | the chat page's tab bar |
| floating.dfy | Floating | the floating ball's status cycle |

How time and input are modelled:

- A demo run's environment is the operator's input, one `Op` (nothing, pause/resume, stop) per
  100 ms tick.
- `Playback.Sleep` consumes this input exactly as the source's polling loop does.
- `Script.Exec` interprets a compiled scenario and calls `Sleep` for each wait.
- Each timer stage of the router is its own function. Which events happen in between is up to the
  caller, which is how the two findings below are stated.

## Model

| member | source | states |
|---|---|---|
| Messages.FromReply | src/components/Assistant/ChatDrawer.tsx:88-94 | an emitted reply is an assistant message with the given stamp, carrying exactly the reply's content, tasks and cards, and no error flag |
| Messages.ApplyPatch | src/components/Assistant/ChatDrawer.tsx:96-103 | a `{ ...msg, field }` rewrite keeps the identity, role, content, confirm card and error flag; for each of tasks, audience card, copy card and buttons, a kept field is unchanged, a cleared field becomes undefined and a set field holds the new value |
| Messages.PatchKeepsSound | src/types.ts:1-6 | a patch whose task list is sound keeps a sound message sound |
| Store.Append | src/components/Assistant/ChatDrawer.tsx:83-86 | appending grows the log by one at the tail and keeps every earlier entry |
| Store.PatchLast | src/components/Assistant/ChatDrawer.tsx:96-103 | rewriting the last entry keeps the length and every other entry, and puts the updater's result last |
| Store.Reset | src/components/Assistant/ChatDrawer.tsx:61 | a reset log is exactly the one seed message |
| Store.PatchSingle | src/components/Assistant/ChatDrawer.tsx:96-103 | on a one-message log the rewrite hits that message |
| Store.AppendKeepsEntries | src/components/Assistant/ChatDrawer.tsx:83-86 | every earlier index reads the same after an append |
| Store.AppendKeepsSound | src/types.ts:1-6 | appending a sound message to a sound log keeps it sound |
| Store.PatchKeepsLogSound | src/components/Assistant/ChatDrawer.tsx:96-103 | rewriting the last entry with a sound patch keeps the log sound |
| Playback.Start | src/components/Assistant/ChatDrawer.tsx:57-60 | starting a scenario installs playing, unpaused flags naming that scenario |
| Playback.TogglePause | src/components/Assistant/ChatDrawer.tsx:49-55 | pause flips the pause flag and touches nothing else |
| Playback.Stop | src/components/Assistant/ChatDrawer.tsx:44-47 | stop leaves nothing playing, nothing paused, no scenario |
| Playback.Settle | src/components/Assistant/ChatDrawer.tsx:368-371 | the `finally` leaves nothing playing, nothing paused, no scenario |
| Playback.PauseTwice | src/components/Assistant/ChatDrawer.tsx:49-55 | pausing twice restores the flags |
| Playback.SettleIsStop | src/components/Assistant/ChatDrawer.tsx:368-371 | however a run ends, its flags equal those of an explicit stop |
| Playback.StoppedStaysStopped | src/components/Assistant/ChatDrawer.tsx:44-55 | no operator action makes a stopped run play again |
| Playback.Tick | src/components/Assistant/ChatDrawer.tsx:66-69 | one loop pass throws exactly when not playing; otherwise the clock advances by 100 ms unless paused |
| Playback.Sleep | src/components/Assistant/ChatDrawer.tsx:64-71 | the input consumed is a prefix; the clock is 100 ms times the unpaused ticks; a finished sleep has waited at least `ms` and overshoots by under a tick; a thrown one is stopped and short of `ms`; the scenario is kept while playing |
| Playback.SleptTicks | src/components/Assistant/ChatDrawer.tsx:64-71 | a finished `sleep(ms)` advanced its clock on exactly ⌈ms/100⌉ ticks, however long it was paused |
| Playback.QuietSleep | src/components/Assistant/ChatDrawer.tsx:64-71 | with no operator input, `sleep` finishes after exactly ⌈ms/100⌉ ticks with the flags unchanged |
| Playback.ShortSleepIsOneTick | src/components/Assistant/ChatDrawer.tsx:73-81 | the 30 ms wait after each typed character takes a single tick |
| Playback.PausedTickHolds | src/components/Assistant/ChatDrawer.tsx:64-71 | a paused tick does not move the clock; only the input advances |
| Playback.StoppedSleepHalts | src/components/Assistant/ChatDrawer.tsx:66-67 | a pending sleep with the run stopped throws at once and consumes nothing |
| Playback.StopSeenWithinOneTick | src/components/Assistant/ChatDrawer.tsx:64-71 | a stop during the k-th tick makes the sleep throw by tick k+1, or it had already finished |
| Script.Exec | src/components/Assistant/ChatDrawer.tsx:64-103 | a run consumes a prefix of the program and of the input; it completes exactly when no primitive is left; it stops only at a wait; an aborted run is stopped; a suspended one has used all input and is still playing |
| Script.QuietExec | src/components/Assistant/ChatDrawer.tsx:64-103 | with no operator input and enough ticks, a run completes with its flags unchanged, the scene after all primitives, and exactly its duration of input consumed |
| Script.ExecScene | src/components/Assistant/ChatDrawer.tsx:64-103 | wherever a run stops, the scene is the effect of exactly the primitives it finished |
| Script.StoppedRunHalts | src/components/Assistant/ChatDrawer.tsx:64-71 | after a stop, a run consumes no more input and never completes a later wait |
| Script.StopEndsRun | src/components/Assistant/ChatDrawer.tsx:64-71 | a stop pressed during tick k ends the run within one tick, whatever the script |
| Script.UserMsgAppends | src/components/Assistant/ChatDrawer.tsx:83-86 | `userMsg` appends one plain user message with the text and changes nothing else |
| Script.AiMsgAppends | src/components/Assistant/ChatDrawer.tsx:88-94 | `aiMsg` appends one assistant message carrying the reply and leaves the typing indicator off |
| Script.PatchLastRewrites | src/components/Assistant/ChatDrawer.tsx:96-103 | `updateLastAiMsg` keeps the length and every entry but the last, and applies the patch to the last |
| Script.RevealsAll | src/components/Assistant/ChatDrawer.tsx:75-78 | revealing a text appends it to the composer and leaves the log alone |
| Script.RevealsPrefix | src/components/Assistant/ChatDrawer.tsx:75-78 | after any number of primitives of the reveal, the composer has grown by the characters revealed so far |
| Script.TypeShowsPrefix | src/components/Assistant/ChatDrawer.tsx:73-81 | wherever `type` is interrupted, the composer holds a prefix of the text and the log is untouched |
| Script.TypedText | src/components/Assistant/ChatDrawer.tsx:73-81 | just before its final clear, `type` shows the whole text |
| Script.TypeClears | src/components/Assistant/ChatDrawer.tsx:73-81 | a finished `type` leaves the composer empty and the log unchanged |
| Script.TypeRevealsInOrder | src/components/Assistant/ChatDrawer.tsx:73-81 | once i characters are revealed the composer shows exactly the first i |
| Script.TranscriptLength | src/components/Assistant/ChatDrawer.tsx:83-103 | a script grows the log by exactly one entry per `userMsg` and `aiMsg`; rewrites add none |
| Script.CompileLog | src/components/Assistant/ChatDrawer.tsx:64-103 | the interpreter's log after a whole script equals the step-level transcript |
| Script.CompileSound | src/components/Assistant/ChatDrawer.tsx:73-103 | a script whose steps are sound compiles to primitives that are all sound |
| Script.ApplyAllSound | src/types.ts:1-6 | sound primitives keep every task list in the log sound |
| Script.AdvancingRewrites | src/components/Assistant/ChatDrawer.tsx:96-103 | tracking only the last entry's task list through a script is enough: when that check passes, every task-setting rewrite advances the list of the entry it actually rewrites |
| Catalog.Lookup | src/components/Assistant/ChatDrawer.tsx:105-362 | the four known ids select a non-empty script; any other id selects none |
| Catalog.S1Sound | src/components/Assistant/ChatDrawer.tsx:106-191 | every task list scenario s1 shows is sound |
| Catalog.S2Sound | src/components/Assistant/ChatDrawer.tsx:192-239 | every task list scenario s2 shows is sound |
| Catalog.S3Sound | src/components/Assistant/ChatDrawer.tsx:240-295 | every task list scenario s3 shows is sound |
| Catalog.S4Sound | src/components/Assistant/ChatDrawer.tsx:296-362 | every task list scenario s4 shows is sound |
| Catalog.ScenariosPost | src/components/Assistant/ChatDrawer.tsx:105-362 | every known scenario posts at least one message |
| Catalog.ScenariosSound | src/components/Assistant/ChatDrawer.tsx:105-362 | whatever the id, the selected script is sound |
| Catalog.ScenariosAdvance | src/components/Assistant/ChatDrawer.tsx:105-362 | whatever the id and the log it starts from, every rewrite that sets a task list (s1 at 120 and 157, s2 at 205, s4 at 308 and 339) lands on an entry already showing a list, lowers no task's progress and reopens no finished task |
| Demo.Opening | src/components/Assistant/ChatDrawer.tsx:57-62 | a run starts from the log reset to the demo greeting, with the rest of the view as it was |
| Demo.Play | src/components/Assistant/ChatDrawer.tsx:57-372 | a run that ends, normally or by stop, leaves the flags idle; one still waiting is playing its own scenario; it consumes a prefix of the input |
| Demo.PlayScene | src/components/Assistant/ChatDrawer.tsx:57-372 | whatever the run did, its log is the demo greeting followed by the effects of the primitives it finished |
| Demo.UnknownScenario | src/components/Assistant/ChatDrawer.tsx:57-372 | an unknown id still resets the log to the greeting and ends idle, consuming no input |
| Demo.StopEndsDemo | src/components/Assistant/ChatDrawer.tsx:364-371 | a stop pressed during tick k ends the run within one tick, with the flags idle |
| Demo.QuietDemo | src/components/Assistant/ChatDrawer.tsx:57-372 | left alone long enough, a run completes idle, with the greeting followed by the script's transcript |
| Demo.PlaySound | src/components/Assistant/ChatDrawer.tsx:57-372 | at every point of a run of a sound script, every task list shown is sound |
| Demo.DemoLogSound | src/components/Assistant/ChatDrawer.tsx:105-362 | every run of every scenario, stopped anywhere, shows only sound task lists |
| Demo.NewSession | src/components/Assistant/ChatDrawer.tsx:586-590 | a new session stops playback and leaves exactly the session greeting as the log; the composer, typing indicator and profile are kept |
| Demo.PickerReturns | src/components/Assistant/ChatDrawer.tsx:666 | the scenario picker shows after a new session, and after a run of an unknown id |
| Demo.ScenarioHidesPicker | src/components/Assistant/ChatDrawer.tsx:666 | a known scenario played to its end leaves the picker hidden |
| Tabs.ActiveTab | src/pages/ChatPage.tsx:10-12 | the active tab is always one of the three tabs |
| Tabs.TabPath | src/pages/ChatPage.tsx:14-18 | exactly the three tab ids navigate somewhere |
| Tabs.ActiveTabSpec | src/pages/ChatPage.tsx:10-12 | a path mentioning 'tasks' shows tasks; otherwise one mentioning 'audience' shows audience; otherwise chat (both directions) |
| Tabs.PathsSelectTheirTabs | src/pages/ChatPage.tsx:10-18 | each tab's own path selects that tab |
| Tabs.TabRoundTrip | src/pages/ChatPage.tsx:10-18 | choosing a tab and reading the tab back from the path it navigates to gives the same tab |
| Router.ClassifySpec | src/components/Assistant/ChatDrawer.tsx:395-460 | in priority order, the intent is the pipeline iff a selection keyword occurs; a missing account iff '推送' occurs without '账号'; otherwise an acknowledgement |
| Router.Send | src/components/Assistant/ChatDrawer.tsx:374-389 | ignored while a demo plays; otherwise the user message is appended and the typing indicator comes on |
| Router.Answer | src/components/Assistant/ChatDrawer.tsx:391-461 | typing goes off and exactly one assistant message is appended: the pipeline tasks, the error flag, or neither, by intent |
| Router.FinishFirst | src/components/Assistant/ChatDrawer.tsx:413-422 | the follow-up's rewrite throws exactly on an empty task list; otherwise only the first task changes, to done at 100% with its id and name kept, and every other field of the message is kept |
| Router.PipelineFollowUp | src/components/Assistant/ChatDrawer.tsx:413-439 | as written: fails iff the last message has an empty task list; otherwise earlier entries are kept, the last entry becomes its `FinishFirst` rewrite (first task done at 100%, the rest unchanged), and the audience reply is appended |
| Router.PipelineFollowUpFixed | src/components/Assistant/ChatDrawer.tsx:413-439 | corrected: fails iff a message carrying the pipeline's stamp has an empty task list; otherwise exactly those messages get their first task finished, every other entry is kept, and the audience reply is appended |
| Router.Confirm | src/components/Assistant/ChatDrawer.tsx:463-473 | ignored while a demo plays; otherwise the confirmation is appended and typing comes on |
| Router.ConfirmStage1 | src/components/Assistant/ChatDrawer.tsx:474-487 | typing goes off and the pipeline message with selection done and generation at 30% is appended |
| Router.Stage2 | src/components/Assistant/ChatDrawer.tsx:489-502 | throws iff the message has fewer than three tasks; otherwise task 2 becomes done at 100% and task 3 processing at 20%, both keeping id and name, later tasks and every other field are kept, a message without tasks stays without, and the content is replaced |
| Router.Stage3 | src/components/Assistant/ChatDrawer.tsx:504-515 | throws iff the message has fewer than three tasks; otherwise task 3 becomes done at 100% keeping id and name, the other tasks and every other field are kept, a message without tasks stays without, and the content is replaced |
| Router.RewriteStamped | src/components/Assistant/ChatDrawer.tsx:491-502 | rewriting by stamp fails iff a stamped message's rewrite fails; otherwise unstamped messages are kept and stamped ones rewritten |
| Router.ConfirmStage2 | src/components/Assistant/ChatDrawer.tsx:490-502 | as written: fails iff the last message has fewer than three tasks; otherwise every entry but the last is kept and the last becomes its stage-2 rewrite (pushing text, task 2 done, task 3 at 20%) |
| Router.ConfirmStage3 | src/components/Assistant/ChatDrawer.tsx:505-515 | as written: fails iff the last message has fewer than three tasks; otherwise every entry but the last is kept and the last becomes its stage-3 rewrite (finished text, task 3 done) |
| Router.ConfirmStage2Fixed | src/components/Assistant/ChatDrawer.tsx:490-502 | corrected: fails iff a message carrying the flow's stamp has fewer than three tasks; otherwise exactly those messages get the stage-2 rewrite and every other entry is kept |
| Router.ConfirmStage3Fixed | src/components/Assistant/ChatDrawer.tsx:505-515 | corrected: fails iff a message carrying the flow's stamp has fewer than three tasks; otherwise exactly those messages get the stage-3 rewrite and every other entry is kept |
| Router.Reject | src/components/Assistant/ChatDrawer.tsx:521-531 | ignored while a demo plays; otherwise the objection is appended and typing comes on |
| Router.RejectStage1 | src/components/Assistant/ChatDrawer.tsx:532-541 | typing goes off and one plain assistant question is appended |
| Router.ConfirmTasksProgress | src/components/Assistant/ChatDrawer.tsx:474-516 | the three task lists of the confirm flow are sound, each stage only moves tasks forward, and the last leaves all finished |
| Router.FinishFirstAdvances | src/components/Assistant/ChatDrawer.tsx:413-422 | on a sound message the follow-up's rewrite lowers no progress and reopens no finished task |
| Router.Stage2CanReopen | src/components/Assistant/ChatDrawer.tsx:490-502 | stage 2 advances only from the flow's own list: on a sound list whose third task is finished, it sets that task back to processing at 20% |
| Router.StagesKeepSound | src/components/Assistant/ChatDrawer.tsx:413-515 | each timer rewrite keeps a sound message sound |
| Router.AppendsKeepSound | src/components/Assistant/ChatDrawer.tsx:374-541 | every handler that appends keeps the log sound |
| Router.StagesKeepLogSound | src/components/Assistant/ChatDrawer.tsx:413-515 | the timer stages, as written and corrected, keep the log sound when they succeed |
| Router.Stage2OverwritesUserMessage | src/components/Assistant/ChatDrawer.tsx:490-502 | with a user message sent before stage 2 fires, stage 2 replaces that user message's content and leaves the pipeline message at 30% |
| Router.Stage2FixedSparesUserMessage | src/components/Assistant/ChatDrawer.tsx:490-502 | corrected, the same interruption leaves the user message alone and advances the pipeline message |
| Router.FollowUpMissesPipeline | src/components/Assistant/ChatDrawer.tsx:413-422 | with a user message sent before the follow-up fires, the pipeline's first task stays at 50% |
| Router.FollowUpFixedFinishesPipeline | src/components/Assistant/ChatDrawer.tsx:413-422 | corrected, the same interruption still finishes the first task and leaves the user message alone |
| Router.FixedAgreesWhenLast | src/components/Assistant/ChatDrawer.tsx:413-515 | when the flow's message is last and its stamp is unique, the corrected stages equal the written ones |
| Router.ActionClick | src/components/Assistant/ChatDrawer.tsx:544-552 | the drawer closes exactly when it navigates, and it navigates exactly for the two goto actions |
| Router.ActionsLandOnTabs | src/components/Assistant/ChatDrawer.tsx:544-552 | each goto action lands on the chat page tab it names |
| Composer.Input | src/components/Assistant/InputArea.tsx:32-51 | the text is taken; at most one picker is up; an open picker starts at its first row; closing keeps the row |
| Composer.InputOpensOnTrigger | src/components/Assistant/InputArea.tsx:36-50 | a picker is up iff the word after the last space starts with its trigger character |
| Composer.TriggerOpensPicker | src/components/Assistant/InputArea.tsx:39-46 | typing '/' or '@' as a new word opens that picker at row 0 |
| Composer.UpDownInverse | src/components/Assistant/InputArea.tsx:56-61 | on an existing row, arrow up and arrow down undo each other |
| Composer.DownsWrap | src/components/Assistant/InputArea.tsx:56-58 | k presses of arrow down move k rows round the list; a full round returns to the start |
| Composer.Select | src/components/Assistant/InputArea.tsx:78-86 | selecting closes both pickers and keeps the row |
| Composer.SelectReplacesWord | src/components/Assistant/InputArea.tsx:78-86 | the word being typed is replaced by trigger, name and space; the text before it is kept; the result has an empty last word |
| Composer.Send | src/components/Assistant/InputArea.tsx:88-94 | something is sent iff the text is not blank; what is sent is non-empty and trimmed; sending clears the text and closes the pickers |
| Composer.KeyDown | src/components/Assistant/InputArea.tsx:53-76 | a key faults exactly on Enter with a picker up on a missing row; with a picker up the arrows move the row by `Down`/`Up` and change nothing else, and Escape closes both pickers keeping text and row; without one, only an unshifted Enter does anything, which is to send |
| Composer.Hover | src/components/Assistant/InputArea.tsx:119 | hovering a row highlights it and changes nothing else: the text and both picker flags are kept |
| Composer.HandlersKeepValid | src/components/Assistant/InputArea.tsx:26-94 | the initial state is valid (at most one picker, and an open picker's row exists) and every handler keeps it so |
| Composer.RunNeverFaults | src/components/Assistant/InputArea.tsx:53-70 | from a valid state no sequence of typing, keys, hovers, row clicks and send clicks makes Enter read a missing row |
| Composer.RunSendsTrimmed | src/components/Assistant/InputArea.tsx:88-94 | everything a session sends is non-blank and trimmed at both ends |
| Composer.Step | src/components/Assistant/InputArea.tsx:140-154 | a session event sends something only when it is an unshifted Enter or a send-button click, and then it sends what `handleSend` sends |
| Composer.SendButtonIgnoresPicker | src/components/Assistant/InputArea.tsx:152-154 | with a picker up and non-blank text, the send button sends the trimmed text, while Enter would send nothing |
| Composer.ClickSelectsRow | src/components/Assistant/InputArea.tsx:118 | clicking row i closes the pickers and leaves the text ending in the trigger, row i's name and a space, sending nothing |
| Composer.EnterSends | src/components/Assistant/InputArea.tsx:72-75 | with no picker up, an unshifted Enter sends exactly the trimmed text, and nothing when the text is blank |
| Composer.EnterSelects | src/components/Assistant/InputArea.tsx:62-64 | with a picker up, Enter with or without shift inserts the highlighted row and sends nothing |
| Composer.HoverThenEnter | src/components/Assistant/InputArea.tsx:62-64 | pointing at a row and pressing Enter inserts the same name, closes the pickers and sends nothing, exactly as clicking that row does (118-119); the two differ only in the highlight index they keep |
| Text.ContainsMeansOccurs | src/components/Assistant/ChatDrawer.tsx:395 | `includes` holds exactly when some window of the text spells the key |
| Text.Split | src/components/Assistant/InputArea.tsx:79 | splitting on spaces yields at least one piece, no piece holds a space, and joining the pieces gives the text back |
| Text.SplitJoin | src/components/Assistant/InputArea.tsx:79-81 | splitting undoes joining, for words without spaces |
| Text.TrimStart | src/components/Assistant/InputArea.tsx:81 | the result is a suffix of the text, everything cut off is white space, and it does not start with white space |
| Text.TrimEmpty | src/components/Assistant/InputArea.tsx:89 | trimming yields the empty string exactly when the text is all white space |
| Text.TrimInfix | src/components/Assistant/InputArea.tsx:90 | what trimming keeps is one contiguous piece of the text with only white space before and after it |
| Floating.Next | src/components/Assistant/FloatingAssistant.tsx:17-21 | the interval always changes the status |
| Floating.Handle | src/components/Assistant/FloatingAssistant.tsx:14-24 | while the drawer is open only closing changes anything; the status moves exactly on a period elapsing with the drawer closed |
| Floating.CycleOfThree | src/components/Assistant/FloatingAssistant.tsx:17-21 | three periods bring every status back, and fewer do not |
| Floating.WholeCycles | src/components/Assistant/FloatingAssistant.tsx:17-21 | any whole number of cycles is the identity |
| Floating.PeriodThree | src/components/Assistant/FloatingAssistant.tsx:17-21 | the status after k periods depends only on k modulo 3 |
| Floating.RunCycles | src/components/Assistant/FloatingAssistant.tsx:14-24 | after any clicks and closes, the status has moved on by the number of periods elapsed with the drawer closed |
| Floating.OpenHolds | src/components/Assistant/FloatingAssistant.tsx:14-15 | with the drawer open throughout, nothing changes |
| Floating.DotAfterTwoPeriods | src/components/Assistant/FloatingAssistant.tsx:77-79 | from the start, closing and waiting two periods shows the notification dot, and a third hides it |

## Left out

- Rendering is not modelled: the JSX, styling, animation, icons, message bubbles, the history panel and the profile overlay's contents. The state they read is modelled, except the history flag (next line).
- The history panel's flag `showHistory` is not modelled (ChatDrawer.tsx:23). Its header toggle (580), its reset by `runDemo` (62) and by "New session" (590), and the history entries that close it are all dropped. The scenario picker sits in the panel's `!showHistory` branch (632), so `Demo.PickerShown` states only the condition at 666. It is necessary for the picker to show, but not sufficient: an open history panel hides the picker as well.
- Real time is not modelled.
  - A demo's waits are driven by the operator's input, one action per 100 ms tick. Several clicks within one tick collapse into one.
  - The router's timers are separate stage functions, and the caller chooses what happens between them.
  - The ball's interval is a sequence of elapsed periods. Re-opening the drawer restarts the source's interval; the model counts whole periods only.
- Overlapping demo runs are not modelled. The picker shows only when the log holds one entry and no demo is playing (ChatDrawer.tsx:666). After a new session it reappears at once, because the log is reset to the greeting. After a stop it reappears only if the log still holds just the demo greeting, that is, if the stop came during the opening `type` before the first `userMsg`; after any later stop it stays hidden. Whenever it reappears, the old run can still act during its pending tick, so a second run started then would interleave with the first. That is concurrency and is left out.
- A "New session" click during a run (ChatDrawer.tsx:586-590) is not one of the operator's inputs. The run's input holds only nothing, pause and stop. In the source the click stops the run and resets the log to the session greeting. If it lands in the last tick of a wait, that wait still returns, and the primitives up to the next wait still run against the new session's log. For example, in s1 the `updateLastAiMsg` after `sleep(1000)` (ChatDrawer.tsx:119-120) would patch the new greeting, and the `setIsTyping(true)` of an `aiMsg` would leave the typing indicator on. The model makes no claim about such a run.
- Router timers still pending when a demo run starts are not modelled. `runDemo` never cancels them (ChatDrawer.tsx:57-61). Suppose "圈选" is sent (386-388), then "+" is pressed (586-590), then s1 is picked, all within one second. `processAgentLogic` then appends its pipeline message into the demo's log, and its follow-up (413-422) and the confirm flow's stages (490-515) rewrite whatever demo message is last. Demo.PlayScene and Demo.QuietDemo assume that no router timer fires during the run.
- The `useEffect` that copies `demoState` into `demoRef` (ChatDrawer.tsx:40-42) is folded into a single `Control`.
- The `catch` that logs "Demo stopped" to the console is output only.
- Strings are sequences of Unicode scalar values. The source's `type` counts `text.length` and indexes `text[i]` (ChatDrawer.tsx:75-77), which are UTF-16 code units, so a character outside the Basic Multilingual Plane would take two reveals and two `sleep(30)` calls there and one of each here. Every text the source ships lies inside that plane, where both counts agree.
- Message ids and timestamps come from `Date.now()` and `new Date()`. They are opaque `Stamp` values passed in by the caller, and nothing assumes two stamps differ.
- The router's stage updaters mutate `Task` objects in place. Those objects are shared with earlier states, and a React development-mode double call would apply the mutation twice. The model rewrites by value. Stage 2's partial mutation of `tasks[1]` before it throws on a two-task list is also not kept.
- Scenario and router prose is replaced by opaque placeholder constants. This covers message contents, card texts and sample customers. The router's keywords and the skill and audience names are the real strings, because behaviour depends on them.
- Typed texts are placeholders too, and shorter than the source's (s1's request at ChatDrawer.tsx:107 has 41 characters, its placeholder 10). `type` reveals one character per wait, so a scenario's total tick count is not the source's. Every property here is stated for any text, so none depends on the lengths.
- Catalog.Lookup: states only which ids select a script and that the script is non-empty. The scripts' contents are checked through Catalog.ScenariosSound, Catalog.ScenariosAdvance and Catalog.ScenariosPost, not message by message.
- `runDemo` has no guard for an unknown id, so its reset and its `finally` still run (ChatDrawer.tsx:61, 364-371): the log becomes the demo greeting and the flags end idle. Demo.UnknownScenario states this.
- The composer's `disabled` flag is not modelled. A disabled text area receives no events, so the model simply delivers none. Focus handling and the browser's own Shift+Enter newline are not modelled either; the newline arrives as an ordinary input change.
- The picker rows' descriptions and audience sizes are display only.
- TaskCenter, AudienceInsights and the other pages are not part of this model.
- The floating ball's dragging and status styling are not modelled.

## Findings

| source | as written | input that shows it | evidently intended | confidence | as-written member | corrected member |
|---|---|---|---|---|---|---|
| src/components/Assistant/ChatDrawer.tsx:490-515 | the confirm flow's second and third timers rewrite whatever message is last in the log | after stage 1 has appended the pipeline message, the operator sends "hello" before stage 2 fires; stage 2 then replaces the operator's message text with the pushing line, and the pipeline message stays at 30% | rewrite the message stage 1 created, found by its id | not executed | Router.Stage2OverwritesUserMessage | Router.Stage2FixedSparesUserMessage |
| src/components/Assistant/ChatDrawer.tsx:413-422 | the pipeline follow-up finishes the first task of whatever message is last | after the pipeline answer, the operator sends "hello" before the follow-up fires; the follow-up finds no tasks on "hello", and the pipeline's first task stays at 50% for good | finish the first task of the pipeline message, found by its id | not executed | Router.FollowUpMissesPipeline | Router.FollowUpFixedFinishesPipeline |

=== FILE: catalog.dfy ===
/** The four demo scenarios of the chat drawer, written as step scripts. The prose of every
    message is an opaque placeholder; the structure is the source's: the order of the steps,
    every wait, the task lists with their statuses and progress values, audience totals and
    sample ids, confirmation counts and the action ids of the buttons. */
module Catalog {
  import opened Wrappers
  import opened Messages
  import opened Script

  // Opaque placeholders for the scripted prose.
  const S1Request := "s1.request"
  const S2Request := "s2.request"
  const S2Accounts := "s2.accounts"
  const S3Request := "s3.request"
  const S3Accounts := "s3.accounts"
  const S3Groups := "s3.groups"
  const S4Request := "s4.request"
  const S4Refine := "s4.refine"
  const ConfirmAudienceText := "confirm.audience"
  const ConfirmCopyText := "confirm.copy"
  const ConfirmSendText := "confirm.send"
  const ConfirmRunText := "confirm.run"

  /** `type(text); userMsg(text)`: the operator types a request and sends it. */
  function Ask(text: string): seq<Step> {
    [Type(text), UserMsg(text)]
  }

  /** `sleep(ms); updateLastAiMsg(msg => ({ ...msg, actionButtons: undefined })); userMsg(text)`:
      the operator presses the button under the last reply. */
  function Press(ms: nat, text: string): seq<Step> {
    [Sleep(ms), PatchLast(DropButtons), UserMsg(text)]
  }

  /** `aiMsg(reply); sleep(ms); updateLastAiMsg(...)`: a reply showing a task list and, after
      a wait, its rewrite. */
  function Progress(reply: Reply, ms: nat, p: Patch): seq<Step> {
    [AiMsg(reply), Sleep(ms), PatchLast(p)]
  }

  /** `sleep(before); setShowProfile(id); sleep(dwell); setShowProfile(null)`: the operator
      opens one customer's profile and closes it again. */
  function Glance(before: nat, subject: string, dwell: nat): seq<Step> {
    [Sleep(before), ShowProfile(subject), Sleep(dwell), HideProfile]
  }

  function Button(action: string, primary: Option<bool>): ActionButton {
    ActionButton(Prose, action, primary)
  }

  function Sample(id: string): AudienceSample {
    AudienceSample(id, Prose, Prose, [Prose], Prose)
  }

  function Answer(content: string, tasks: Option<seq<Task>>, confirm: Option<OneOrMany<ConfirmCard>>,
                 buttons: Option<seq<ActionButton>>): Reply {
    Reply(content, tasks, None, None, confirm, buttons)
  }

  // ---------------------------------------------------------------- s1
  const S1Open := [
    Task("t1", Prose, Processing, 30), Task("t2", Prose, Pending, 0), Task("t3", Prose, Pending, 0)]
  const S1Circled := [
    Task("t1", Prose, Done, 100), Task("t2", Prose, Pending, 0), Task("t3", Prose, Pending, 0)]
  const S1Writing := [
    Task("t1", Prose, Done, 100), Task("t2", Prose, Processing, 60), Task("t3", Prose, Pending, 0)]
  const S1Written := [
    Task("t1", Prose, Done, 100), Task("t2", Prose, Done, 100), Task("t3", Prose, Pending, 0)]
  const S1Sent := [
    Task("t1", Prose, Done, 100), Task("t2", Prose, Done, 100), Task("t3", Prose, Done, 100)]

  /** The pipeline opens and the audience is circled. */
  const S1Circle := Progress(Answer(Prose, Some(S1Open), None, None), 1000,
    Patch(Set(S1Circled), Set(AudienceCard(328, [Sample("c1"), Sample("c2"), Sample("c3")])), Keep,
          Set([Button("confirm_audience", Some(true))])))
  /** The copy is written. */
  const S1Draft := Progress(Answer(Prose, Some(S1Writing), None, None), 1500,
    Patch(Set(S1Written), Keep, Set(One(CopyCard(Prose, Prose))), Set([Button("confirm_copy", Some(true))])))
  /** The pipeline opens, the audience is circled, a profile is shown, the audience is
      confirmed and the copy is written. */
  const S1Pipeline := S1Circle + Glance(1500, "c1", 3000) + Press(1000, ConfirmAudienceText) + S1Draft
  const S1Confirm := [ AiMsg(Answer(Prose, None, Some(One(ConfirmCard(Prose, 328, Prose, None))),
                                   Some([Button("confirm_send", Some(true))]))) ]
  const S1Finish := [ AiMsg(Answer(Prose, Some(S1Sent), None, Some([Button("goto_tasks", None)]))) ]

  const S1 :=
    Ask(S1Request) + S1Pipeline + Press(2000, ConfirmCopyText) + S1Confirm + Press(2000, ConfirmSendText) + S1Finish

  // ---------------------------------------------------------------- s2
  const S2Open := [Task("t1", Prose, Done, 100), Task("t2", Prose, Processing, 50)]
  const S2Written := [Task("t1", Prose, Done, 100), Task("t2", Prose, Done, 100)]

  const S2Drafting := Progress(Answer(Prose, Some(S2Open), None, None), 1500,
    Patch(Set(S2Written), Keep, Set(One(CopyCard(Prose, Prose))), Set([Button("confirm_copy", Some(true))])))
  /** A plain question or report from the assistant. */
  const Remark := [ AiMsg(Said(Prose)) ]
  const S2Confirm := [ AiMsg(Answer(Prose, None, Some(One(ConfirmCard(Prose, 1245, Prose, Some(Prose)))),
                                   Some([Button("confirm_send", Some(true))]))) ]

  const S2 :=
    Ask(S2Request) + S2Drafting + Press(2000, ConfirmCopyText) + Remark + Ask(S2Accounts) + S2Confirm
    + Press(2000, ConfirmSendText) + Remark

  // ---------------------------------------------------------------- s3
  const S3Drafts := [ AiMsg(Reply(Prose, None, None, Some(Many([CopyCard(Prose, Prose), CopyCard(Prose, Prose)])), None,
                                  Some([Button("confirm_copy", Some(true))]))) ]
  const S3MomentsConfirm := [ AiMsg(Answer(Prose, None, Some(One(ConfirmCard(Prose, 8, Prose, Some(Prose)))),
                                          Some([Button("confirm_send", Some(true))]))) ]
  const S3GroupsConfirm := [ AiMsg(Answer(Prose, None, Some(One(ConfirmCard(Prose, 12, Prose, Some(Prose)))),
                                         Some([Button("confirm_send", Some(true))]))) ]
  const S3Finish := [ AiMsg(Answer(Prose, None, None, Some([Button("goto_tasks", None)]))) ]

  const S3 :=
    Ask(S3Request) + S3Drafts + Press(2000, ConfirmCopyText) + Remark + Ask(S3Accounts) + S3MomentsConfirm
    + Press(2000, ConfirmRunText) + Remark + Ask(S3Groups) + S3GroupsConfirm + Press(2000, ConfirmSendText) + S3Finish

  // ---------------------------------------------------------------- s4
  const S4Open := [Task("t1", Prose, Processing, 40)]
  const S4Done := [Task("t1", Prose, Done, 100)]
  const S4Again := [Task("t1", Prose, Processing, 60)]

  const S4Circle := Progress(Answer(Prose, Some(S4Open), None, None), 1500,
    Patch(Set(S4Done), Set(AudienceCard(156, [Sample("c4"), Sample("c5")])), Keep, Keep))
  const S4Circling := S4Circle + Glance(2000, "c4", 3500) + [Sleep(1000)]
  const S4Recircling := Progress(Answer(Prose, Some(S4Again), None, None), 1500,
    Patch(Set(S4Done), Set(AudienceCard(112, [Sample("c5"), Sample("c6")])), Keep,
          Set([Button("confirm_audience", Some(true))])))
  const S4Finish := [ AiMsg(Answer(Prose, None, None, Some([Button("goto_audience", None)]))) ]

  const S4 :=
    Ask(S4Request) + S4Circling + Ask(S4Refine) + S4Recircling + Press(2000, ConfirmAudienceText) + S4Finish

  /** The `if / else if` chain of `runDemo`: an id it does not know selects no steps at all. */
  function Lookup(id: string): (steps: seq<Step>)
    ensures id !in {"s1", "s2", "s3", "s4"} ==> steps == []
    ensures id in {"s1", "s2", "s3", "s4"} ==> |steps| > 0
  {
    if id == "s1" then S1
    else if id == "s2" then S2
    else if id == "s3" then S3
    else if id == "s4" then S4
    else []
  }

  lemma AskSound(text: string)
    ensures ScriptSound(Ask(text))
  {
    assert forall j :: 0 <= j < 2 ==> StepSound(Ask(text)[j]);
  }

  lemma PressSound(ms: nat, text: string)
    ensures ScriptSound(Press(ms, text))
  {
    assert forall j :: 0 <= j < 3 ==> StepSound(Press(ms, text)[j]);
  }

  lemma GlanceSound(before: nat, subject: string, dwell: nat)
    ensures ScriptSound(Glance(before, subject, dwell))
  {
    assert forall j :: 0 <= j < 4 ==> StepSound(Glance(before, subject, dwell)[j]);
  }

  /** Soundness of a script built from sound pieces. */
  lemma Sound3(a: seq<Step>, b: seq<Step>, c: seq<Step>)
    requires ScriptSound(a) && ScriptSound(b) && ScriptSound(c)
    ensures ScriptSound(a + b + c)
  {
    ScriptSoundConcat(a, b);
    ScriptSoundConcat(a + b, c);
  }

  lemma S1Sound()
    ensures ScriptSound(S1)
  {
    var b := S1Pipeline;
    assert StepSound(S1Circle[0]) && StepSound(S1Circle[2]) && ScriptSound(S1Circle);
    assert StepSound(S1Draft[0]) && StepSound(S1Draft[2]) && ScriptSound(S1Draft);
    GlanceSound(1500, "c1", 3000);
    PressSound(1000, ConfirmAudienceText);
    Sound3(S1Circle, Glance(1500, "c1", 3000), Press(1000, ConfirmAudienceText));
    ScriptSoundConcat(S1Circle + Glance(1500, "c1", 3000) + Press(1000, ConfirmAudienceText), S1Draft);
    assert StepSound(S1Finish[0]);
    AskSound(S1Request);
    PressSound(2000, ConfirmCopyText);
    PressSound(2000, ConfirmSendText);
    var p := Ask(S1Request) + b + Press(2000, ConfirmCopyText);
    Sound3(Ask(S1Request), b, Press(2000, ConfirmCopyText));
    Sound3(p, S1Confirm, Press(2000, ConfirmSendText));
    ScriptSoundConcat(p + S1Confirm + Press(2000, ConfirmSendText), S1Finish);
  }

  lemma S2Sound()
    ensures ScriptSound(S2)
  {
    assert StepSound(S2Drafting[0]) && StepSound(S2Drafting[2]);
    assert ScriptSound(S2Drafting);
    AskSound(S2Request);
    AskSound(S2Accounts);
    PressSound(2000, ConfirmCopyText);
    PressSound(2000, ConfirmSendText);
    var p1 := Ask(S2Request) + S2Drafting + Press(2000, ConfirmCopyText);
    Sound3(Ask(S2Request), S2Drafting, Press(2000, ConfirmCopyText));
    var p2 := p1 + Remark + Ask(S2Accounts);
    Sound3(p1, Remark, Ask(S2Accounts));
    Sound3(p2, S2Confirm, Press(2000, ConfirmSendText));
    ScriptSoundConcat(p2 + S2Confirm + Press(2000, ConfirmSendText), Remark);
  }

  lemma S3Sound()
    ensures ScriptSound(S3)
  {
    AskSound(S3Request);
    AskSound(S3Accounts);
    AskSound(S3Groups);
    PressSound(2000, ConfirmCopyText);
    PressSound(2000, ConfirmRunText);
    PressSound(2000, ConfirmSendText);
    var p1 := Ask(S3Request) + S3Drafts + Press(2000, ConfirmCopyText);
    Sound3(Ask(S3Request), S3Drafts, Press(2000, ConfirmCopyText));
    var p2 := p1 + Remark + Ask(S3Accounts);
    Sound3(p1, Remark, Ask(S3Accounts));
    var p3 := p2 + S3MomentsConfirm + Press(2000, ConfirmRunText);
    Sound3(p2, S3MomentsConfirm, Press(2000, ConfirmRunText));
    var p4 := p3 + Remark + Ask(S3Groups);
    Sound3(p3, Remark, Ask(S3Groups));
    Sound3(p4, S3GroupsConfirm, Press(2000, ConfirmSendText));
    ScriptSoundConcat(p4 + S3GroupsConfirm + Press(2000, ConfirmSendText), S3Finish);
  }

  lemma S4Sound()
    ensures ScriptSound(S4)
  {
    assert StepSound(S4Circle[0]) && StepSound(S4Circle[2]) && ScriptSound(S4Circle);
    GlanceSound(2000, "c4", 3500);
    assert ScriptSound([Sleep(1000)]);
    Sound3(S4Circle, Glance(2000, "c4", 3500), [Sleep(1000)]);
    assert StepSound(S4Recircling[0]) && StepSound(S4Recircling[2]);
    assert ScriptSound(S4Recircling);
    AskSound(S4Request);
    AskSound(S4Refine);
    PressSound(2000, ConfirmAudienceText);
    var p := Ask(S4Request) + S4Circling + Ask(S4Refine);
    Sound3(Ask(S4Request), S4Circling, Ask(S4Refine));
    Sound3(p, S4Recircling, Press(2000, ConfirmAudienceText));
    ScriptSoundConcat(p + S4Recircling + Press(2000, ConfirmAudienceText), S4Finish);
  }

  // The progress rule of the task pipelines, block by block: `x` is whatever the last entry
  // shows when a block starts, and each lemma says what it shows when the block ends.

  lemma AskAdvances(x: Option<seq<Task>>, text: string)
    ensures Advancing(x, Ask(text)) && TasksAfter(x, Ask(text)) == None
  {
    var b := Ask(text);
    assert Advancing(None, b[2..]) && TasksAfter(None, b[2..]) == None;
    AdvancingFrom(NextTasks(x, b[0]), b, 1, None);
    AdvancingFrom(x, b, 0, None);
    assert b[0..] == b;
  }

  lemma PressAdvances(x: Option<seq<Task>>, ms: nat, text: string)
    ensures Advancing(x, Press(ms, text)) && TasksAfter(x, Press(ms, text)) == None
  {
    var b := Press(ms, text);
    assert Advancing(None, b[3..]) && TasksAfter(None, b[3..]) == None;
    AdvancingFrom(x, b, 2, None);
    AdvancingFrom(x, b, 1, None);
    AdvancingFrom(x, b, 0, None);
    assert b[0..] == b;
  }

  lemma GlanceAdvances(x: Option<seq<Task>>, before: nat, subject: string, dwell: nat)
    ensures Advancing(x, Glance(before, subject, dwell)) && TasksAfter(x, Glance(before, subject, dwell)) == x
  {
    var b := Glance(before, subject, dwell);
    assert Advancing(x, b[4..]) && TasksAfter(x, b[4..]) == x;
    AdvancingFrom(x, b, 3, x);
    AdvancingFrom(x, b, 2, x);
    AdvancingFrom(x, b, 1, x);
    AdvancingFrom(x, b, 0, x);
    assert b[0..] == b;
  }

  lemma ReplyAdvances(x: Option<seq<Task>>, b: seq<Step>)
    requires |b| == 1 && b[0].AiMsg?
    ensures Advancing(x, b) && TasksAfter(x, b) == b[0].reply.tasks
  {
    assert b[1..] == [];
  }

  /** A reply and its later rewrite advance exactly when the rewritten list advances the
      reply's own. */
  lemma ProgressAdvances(x: Option<seq<Task>>, reply: Reply, ms: nat, p: Patch)
    requires reply.tasks.Some? && p.tasks.Set? && Advances(reply.tasks.value, p.tasks.value)
    ensures Advancing(x, Progress(reply, ms, p)) && TasksAfter(x, Progress(reply, ms, p)) == Some(p.tasks.value)
  {
    var b := Progress(reply, ms, p);
    var y := Some(p.tasks.value);
    assert Advancing(y, b[3..]) && TasksAfter(y, b[3..]) == y;
    AdvancingFrom(reply.tasks, b, 2, y);
    AdvancingFrom(reply.tasks, b, 1, y);
    AdvancingFrom(x, b, 0, y);
    assert b[0..] == b;
  }

  lemma S1PipelineAdvances(x: Option<seq<Task>>)
    ensures Advancing(x, S1Pipeline) && TasksAfter(x, S1Pipeline) == Some(S1Written)
  {
    var c := S1Circle;
    var g := Glance(1500, "c1", 3000);
    var q := Press(1000, ConfirmAudienceText);
    ProgressAdvances(x, c[0].reply, 1000, c[2].patch);
    assert c == Progress(c[0].reply, 1000, c[2].patch);
    GlanceAdvances(Some(S1Circled), 1500, "c1", 3000);
    AdvancingConcat(x, c, g);
    PressAdvances(Some(S1Circled), 1000, ConfirmAudienceText);
    AdvancingConcat(x, c + g, q);
    var d := S1Draft;
    ProgressAdvances(None, d[0].reply, 1500, d[2].patch);
    assert d == Progress(d[0].reply, 1500, d[2].patch);
    AdvancingConcat(x, c + g + q, d);
  }

  lemma S4CirclingAdvances(x: Option<seq<Task>>)
    ensures Advancing(x, S4Circling) && TasksAfter(x, S4Circling) == Some(S4Done)
  {
    var c := S4Circle;
    var g := Glance(2000, "c4", 3500);
    ProgressAdvances(x, c[0].reply, 1500, c[2].patch);
    assert c == Progress(c[0].reply, 1500, c[2].patch);
    GlanceAdvances(Some(S4Done), 2000, "c4", 3500);
    AdvancingConcat(x, c, g);
    assert Advancing(Some(S4Done), [Sleep(1000)]) && TasksAfter(Some(S4Done), [Sleep(1000)]) == Some(S4Done);
    AdvancingConcat(x, c + g, [Sleep(1000)]);
  }

  lemma S1Advances(x: Option<seq<Task>>)
    ensures Advancing(x, S1)
  {
    AskAdvances(x, S1Request);
    var p := Ask(S1Request);
    S1PipelineAdvances(None);
    AdvancingConcat(x, p, S1Pipeline);
    p := p + S1Pipeline;
    PressAdvances(Some(S1Written), 2000, ConfirmCopyText);
    AdvancingConcat(x, p, Press(2000, ConfirmCopyText));
    p := p + Press(2000, ConfirmCopyText);
    ReplyAdvances(None, S1Confirm);
    AdvancingConcat(x, p, S1Confirm);
    p := p + S1Confirm;
    PressAdvances(None, 2000, ConfirmSendText);
    AdvancingConcat(x, p, Press(2000, ConfirmSendText));
    p := p + Press(2000, ConfirmSendText);
    ReplyAdvances(None, S1Finish);
    AdvancingConcat(x, p, S1Finish);
    p := p + S1Finish;
    assert p == S1;
  }

  lemma S2Advances(x: Option<seq<Task>>)
    ensures Advancing(x, S2)
  {
    AskAdvances(x, S2Request);
    var p := Ask(S2Request);
    ProgressAdvances(None, S2Drafting[0].reply, 1500, S2Drafting[2].patch);
    assert S2Drafting == Progress(S2Drafting[0].reply, 1500, S2Drafting[2].patch);
    AdvancingConcat(x, p, S2Drafting);
    p := p + S2Drafting;
    PressAdvances(Some(S2Written), 2000, ConfirmCopyText);
    AdvancingConcat(x, p, Press(2000, ConfirmCopyText));
    p := p + Press(2000, ConfirmCopyText);
    ReplyAdvances(None, Remark);
    AdvancingConcat(x, p, Remark);
    p := p + Remark;
    AskAdvances(None, S2Accounts);
    AdvancingConcat(x, p, Ask(S2Accounts));
    p := p + Ask(S2Accounts);
    ReplyAdvances(None, S2Confirm);
    AdvancingConcat(x, p, S2Confirm);
    p := p + S2Confirm;
    PressAdvances(None, 2000, ConfirmSendText);
    AdvancingConcat(x, p, Press(2000, ConfirmSendText));
    p := p + Press(2000, ConfirmSendText);
    ReplyAdvances(None, Remark);
    AdvancingConcat(x, p, Remark);
    p := p + Remark;
    assert p == S2;
  }

  lemma S3Advances(x: Option<seq<Task>>)
    ensures Advancing(x, S3)
  {
    AskAdvances(x, S3Request);
    var p := Ask(S3Request);
    ReplyAdvances(None, S3Drafts);
    AdvancingConcat(x, p, S3Drafts);
    p := p + S3Drafts;
    PressAdvances(None, 2000, ConfirmCopyText);
    AdvancingConcat(x, p, Press(2000, ConfirmCopyText));
    p := p + Press(2000, ConfirmCopyText);
    ReplyAdvances(None, Remark);
    AdvancingConcat(x, p, Remark);
    p := p + Remark;
    AskAdvances(None, S3Accounts);
    AdvancingConcat(x, p, Ask(S3Accounts));
    p := p + Ask(S3Accounts);
    ReplyAdvances(None, S3MomentsConfirm);
    AdvancingConcat(x, p, S3MomentsConfirm);
    p := p + S3MomentsConfirm;
    PressAdvances(None, 2000, ConfirmRunText);
    AdvancingConcat(x, p, Press(2000, ConfirmRunText));
    p := p + Press(2000, ConfirmRunText);
    ReplyAdvances(None, Remark);
    AdvancingConcat(x, p, Remark);
    p := p + Remark;
    AskAdvances(None, S3Groups);
    AdvancingConcat(x, p, Ask(S3Groups));
    p := p + Ask(S3Groups);
    ReplyAdvances(None, S3GroupsConfirm);
    AdvancingConcat(x, p, S3GroupsConfirm);
    p := p + S3GroupsConfirm;
    PressAdvances(None, 2000, ConfirmSendText);
    AdvancingConcat(x, p, Press(2000, ConfirmSendText));
    p := p + Press(2000, ConfirmSendText);
    ReplyAdvances(None, S3Finish);
    AdvancingConcat(x, p, S3Finish);
    p := p + S3Finish;
    assert p == S3;
  }

  lemma S4Advances(x: Option<seq<Task>>)
    ensures Advancing(x, S4)
  {
    AskAdvances(x, S4Request);
    var p := Ask(S4Request);
    S4CirclingAdvances(None);
    AdvancingConcat(x, p, S4Circling);
    p := p + S4Circling;
    AskAdvances(Some(S4Done), S4Refine);
    AdvancingConcat(x, p, Ask(S4Refine));
    p := p + Ask(S4Refine);
    ProgressAdvances(None, S4Recircling[0].reply, 1500, S4Recircling[2].patch);
    assert S4Recircling == Progress(S4Recircling[0].reply, 1500, S4Recircling[2].patch);
    AdvancingConcat(x, p, S4Recircling);
    p := p + S4Recircling;
    PressAdvances(Some(S4Done), 2000, ConfirmAudienceText);
    AdvancingConcat(x, p, Press(2000, ConfirmAudienceText));
    p := p + Press(2000, ConfirmAudienceText);
    ReplyAdvances(None, S4Finish);
    AdvancingConcat(x, p, S4Finish);
    p := p + S4Finish;
    assert p == S4;
  }

  /** Every rewrite the scripts make that sets a task list advances the list it replaces:
      no task loses progress and no finished task is reopened. This holds from any log, since
      each such rewrite follows the reply it rewrites. */
  lemma ScenariosAdvance(id: string, log: seq<Message>, stamp: Stamp)
    requires |log| > 0
    ensures RewritesAdvance(log, Lookup(id), stamp)
  {
    var x := log[|log| - 1].tasks;
    S1Advances(x);
    S2Advances(x);
    S3Advances(x);
    S4Advances(x);
    assert Advancing(x, []);
    AdvancingRewrites(log, Lookup(id), stamp);
  }

  /** Every scenario opens with the operator's request, so it posts at least one message. */
  lemma ScenariosPost(id: string)
    requires id in {"s1", "s2", "s3", "s4"}
    ensures Posts(Lookup(id)) >= 1
  {
    PostsAt(Lookup(id), 1);
  }

  /** Every task list the scripts show, in a new reply or in a rewrite, is sound:
      a finished task is at 100% and a running one below it. */
  lemma ScenariosSound(id: string)
    ensures ScriptSound(Lookup(id))
  {
    S1Sound();
    S2Sound();
    S3Sound();
    S4Sound();
  }
}

=== FILE: composer.dfy ===
/** The message composer: a text box whose last word can open a picker of skills ('/') or of
    audiences ('@'), arrow keys that move the highlighted row round the list, Enter that either
    inserts the highlighted item or sends the trimmed text, and Escape that closes the picker. */
module Composer {
  import opened Wrappers
  import opened Text

  /** A row of a picker; the description and audience size it also shows are display only. */
  datatype Item = Item(id: string, name: string)

  const Skills: seq<Item> := [
    Item("s1", "圈人群包"), Item("s2", "私聊推送"), Item("s3", "群聊推送"),
    Item("s4", "内容生成"), Item("s5", "朋友圈推送")]
  const Audiences: seq<Item> := [
    Item("a1", "南京高意向客户"), Item("a2", "近30天未复购老客"), Item("a3", "三居室意向人群")]

  /** The text (owned by the drawer) together with the composer's own state. */
  datatype Composer = Composer(value: string, showSkills: bool, showAudiences: bool, index: nat)

  const Initial := Composer("", false, false, 0)

  predicate IsOpen(c: Composer) {
    c.showSkills || c.showAudiences
  }

  /** The list the picker shows: skills when that flag is up, audiences otherwise. */
  function List(c: Composer): (items: seq<Item>)
    ensures |items| > 0
  {
    if c.showSkills then Skills else Audiences
  }

  /** The character a selection from the shown list is prefixed with. */
  function Trigger(c: Composer): char {
    if c.showSkills then '/' else '@'
  }

  /** What every reachable state satisfies: at most one picker is up, and while one is up
      the highlighted row exists. */
  predicate Valid(c: Composer) {
    && !(c.showSkills && c.showAudiences)
    && (IsOpen(c) ==> c.index < |List(c)|)
  }

  /** `s` starts a word at `i`: position 0 or just after a space, with no space after it. */
  ghost predicate WordAt(s: string, i: int) {
    0 <= i <= |s| && (i == 0 || s[i - 1] == ' ') && NoSpace(s[i..])
  }

  /** The last word begins right after the head. */
  lemma HeadIsWordStart(s: string)
    ensures WordAt(s, |Head(s)|) && LastWord(s) == s[|Head(s)|..]
  {
    LastWordShape(s);
    var h := Head(s);
    assert s == h + LastWord(s);
    assert s[|h|..] == LastWord(s);
  }

  /** The word being typed starts at exactly one place: after the head. */
  lemma WordAtIsHead(s: string, i: int)
    requires WordAt(s, i)
    ensures i == |Head(s)|
  {
    HeadIsWordStart(s);
  }

  /** `handleInputChange`: the text becomes `val`; a last word starting with '/' or '@' opens
      that picker with its first row highlighted, anything else closes both and keeps the row. */
  function Input(c: Composer, val: string): (r: Composer)
    ensures r.value == val
    ensures !(r.showSkills && r.showAudiences)
    ensures IsOpen(r) ==> r.index == 0
    ensures !IsOpen(r) ==> r.index == c.index
  {
    var w := LastWord(val);
    if |w| > 0 && w[0] == '/' then c.(value := val, showSkills := true, showAudiences := false, index := 0)
    else if |w| > 0 && w[0] == '@' then c.(value := val, showSkills := false, showAudiences := true, index := 0)
    else c.(value := val, showSkills := false, showAudiences := false)
  }

  /** A picker is up exactly when the word being typed (the text after the last space) starts
      with its trigger character. */
  lemma InputOpensOnTrigger(c: Composer, val: string)
    ensures Input(c, val).showSkills <==> exists i :: WordAt(val, i) && i < |val| && val[i] == '/'
    ensures Input(c, val).showAudiences <==> exists i :: WordAt(val, i) && i < |val| && val[i] == '@'
  {
    HeadIsWordStart(val);
    forall i | WordAt(val, i)
      ensures i == |Head(val)|
    {
      WordAtIsHead(val, i);
    }
  }

  /** `(prev + 1) % list.length`. All operands are non-negative, so JavaScript's remainder and
      the Euclidean one agree. */
  function Down(i: nat, n: nat): (j: nat)
    requires n > 0
    ensures j < n
  {
    (i + 1) % n
  }

  /** `(prev - 1 + list.length) % list.length`, again on non-negative operands. */
  function Up(i: nat, n: nat): (j: nat)
    requires n > 0
    ensures j < n
  {
    (i + n - 1) % n
  }

  /** The quotient-remainder decomposition determines the remainder. */
  lemma ModUnique(a: int, n: int, q: int, r: int)
    requires n > 0 && 0 <= r < n && a == q * n + r
    ensures a % n == r
  {
    var q', r' := a / n, a % n;
    assert a == q' * n + r';
    assert (q - q') * n == r' - r;
    SmallMultiple(q - q', n);
  }

  lemma SmallMultiple(d: int, n: int)
    requires n > 0 && -n < d * n < n
    ensures d == 0
  {
  }

  /** Down from an existing row: the next row, or the first one after the last. */
  lemma DownMoves(i: nat, n: nat)
    requires i < n
    ensures Down(i, n) == if i + 1 < n then i + 1 else 0
  {
    if i + 1 < n { ModUnique(i + 1, n, 0, i + 1); } else { ModUnique(i + 1, n, 1, 0); }
  }

  /** Up from an existing row: the previous row, or the last one before the first. */
  lemma UpMoves(i: nat, n: nat)
    requires i < n
    ensures Up(i, n) == if i > 0 then i - 1 else n - 1
  {
    if i > 0 { ModUnique(i + n - 1, n, 1, i - 1); } else { ModUnique(n - 1, n, 0, n - 1); }
  }

  /** On a highlighted row that exists, up and down undo each other. */
  lemma UpDownInverse(i: nat, n: nat)
    requires n > 0 && i < n
    ensures Up(Down(i, n), n) == i
    ensures Down(Up(i, n), n) == i
  {
    DownMoves(i, n);
    UpMoves(Down(i, n), n);
    UpMoves(i, n);
    DownMoves(Up(i, n), n);
  }

  /** Pressing down k times from row i. */
  function Downs(i: nat, n: nat, k: nat): (j: nat)
    requires n > 0 && i < n
    ensures j < n
  {
    if k == 0 then i else Down(Downs(i, n, k - 1), n)
  }

  /** Pressing down k times moves k rows on, round the end of the list; after as many presses as
      there are rows the highlight is back where it started. */
  lemma {:induction false} DownsWrap(i: nat, n: nat, k: nat)
    requires n > 0 && i < n
    ensures Downs(i, n, k) == (i + k) % n
    ensures k == n ==> Downs(i, n, k) == i
  {
    if k == 0 {
      ModUnique(i, n, 0, i);
    } else {
      DownsWrap(i, n, k - 1);
      ModStep(i + k - 1, n);
    }
    if k == n {
      ModUnique(i + n, n, 1, i);
    }
  }

  /** One more after a remainder is the remainder of one more. */
  lemma ModStep(a: nat, n: nat)
    requires n > 0
    ensures (a % n + 1) % n == (a + 1) % n
  {
    var q, r := a / n, a % n;
    assert a == q * n + r;
    if r + 1 < n {
      ModUnique(a + 1, n, q, r + 1);
      ModUnique(r + 1, n, 0, r + 1);
    } else {
      ModUnique(a + 1, n, q + 1, 0);
      ModUnique(r + 1, n, 1, 0);
    }
  }

  /** `handleSelect(name, trigger)`: drop the word being typed, append the trigger, the name and a
      space as a new last word, rejoin, trim the front, and close both pickers. */
  function Select(c: Composer, name: string, trigger: char): (r: Composer)
    ensures !IsOpen(r) && r.index == c.index
  {
    var words := Split(c.value);
    var joined := Join(words[..|words| - 1] + [[trigger] + name + " "]);
    c.(value := TrimStart(joined), showSkills := false, showAudiences := false)
  }

  /** Rejoining the words with the last one replaced is appending to the head. */
  lemma SelectJoins(value: string, x: string)
    ensures var words := Split(value); Join(words[..|words| - 1] + [x]) == Head(value) + x
  {
    JoinReplaceLast(Split(value), x);
  }

  /** Replacing the last word keeps everything up to and including the space before it. */
  lemma JoinReplaceLast(words: seq<string>, x: string)
    requires |words| >= 1
    ensures Join(words[..|words| - 1] + [x]) == HeadOf(words) + x
  {
    var init := words[..|words| - 1];
    if |words| == 1 {
      assert init + [x] == [x];
    } else {
      JoinSnoc(init, x);
    }
  }

  /** Trimming the front of `h + x` stops inside `h` when `x` starts with a visible character. */
  lemma TrimStartKeepsTail(h: string, x: string)
    requires |x| > 0 && !IsWhite(x[0])
    ensures var v := TrimStart(h + x); |v| >= |x| && v[|v| - |x|..] == x
  {
    var s := h + x;
    var v := TrimStart(s);
    var cut := |s| - |v|;
    assert forall j :: 0 <= j < cut ==> IsWhite(s[j]) by {
      assert forall j :: 0 <= j < cut ==> s[..cut][j] == s[j];
    }
    assert s[|h|] == x[0];
    assert v == s[cut..];
  }

  /** The selection replaces exactly the word being typed: the text before it is kept (less any
      leading white space), the inserted item ends the text, and the text then ends in a space,
      so the pickers stay closed when the next keystroke arrives. */
  lemma SelectReplacesWord(c: Composer, name: string, trigger: char)
    requires !IsWhite(trigger)
    ensures var v := Select(c, name, trigger).value; var x := [trigger] + name + " ";
      && v == TrimStart(Head(c.value) + x)
      && |v| >= |x| && v[|v| - |x|..] == x
      && LastWord(v) == ""
  {
    var x := [trigger] + name + " ";
    SelectJoins(c.value, x);
    TrimStartKeepsTail(Head(c.value), x);
    var v := Select(c, name, trigger).value;
    assert v[|v| - 1] == x[|x| - 1];
    EndsInSpace(v);
  }

  /** A text ending in a space has an empty last word. */
  lemma EndsInSpace(s: string)
    requires |s| > 0 && s[|s| - 1] == ' '
    ensures LastWord(s) == ""
  {
    HeadIsWordStart(s);
  }

  /** A key as the key handler distinguishes it. */
  datatype Key = ArrowDown | ArrowUp | Enter(shift: bool) | Escape | Other

  /** What a key press leads to: the new composer, and the text handed to `onSend`, if any. */
  datatype Pressed = Pressed(composer: Composer, sent: Option<string>)

  /** `list[selectedIndex].name` on a row that does not exist throws. */
  datatype Fault = NoRow(index: nat)

  /** A sent text: non-empty, with no white space at either end. */
  predicate Trimmed(s: string) {
    |s| > 0 && !IsWhite(s[0]) && !IsWhite(s[|s| - 1])
  }

  /** `handleSend`: blank text is ignored; otherwise the trimmed text is sent, the text
      cleared and both pickers closed. */
  function Send(c: Composer): (p: Pressed)
    ensures p.sent.Some? <==> !AllWhite(c.value)
    ensures p.sent.None? ==> p.composer == c
    ensures p.sent.Some? ==> p.composer == c.(value := "", showSkills := false, showAudiences := false)
                             && Trimmed(p.sent.value) && p.sent.value == Trim(c.value)
  {
    TrimEmpty(c.value);
    var t := Trim(c.value);
    if t == "" then Pressed(c, None)
    else Pressed(c.(value := "", showSkills := false, showAudiences := false), Some(t))
  }

  /** `handleKeyDown`: while a picker is up the arrows move round its list, Enter (shifted or
      not) inserts the highlighted row and Escape closes it; otherwise only an unshifted Enter
      does something, which is to send. */
  function KeyDown(c: Composer, k: Key): (r: Result<Pressed, Fault>)
    ensures r.Failure? <==> IsOpen(c) && k.Enter? && c.index >= |List(c)|
    ensures r.Success? && (IsOpen(c) || !k.Enter? || k.shift) ==> r.value.sent == None
    ensures r.Success? ==> r.value.composer.value == c.value || (!IsOpen(c) && k == Enter(false))
                           || (IsOpen(c) && k.Enter?)
    ensures IsOpen(c) && k == Escape ==>
      r.Success? && !IsOpen(r.value.composer) && r.value.composer.value == c.value && r.value.composer.index == c.index
    ensures IsOpen(c) && k == ArrowDown ==>
      r.Success? && r.value.composer == c.(index := r.value.composer.index) && r.value.composer.index == Down(c.index, |List(c)|)
    ensures IsOpen(c) && k == ArrowUp ==>
      r.Success? && r.value.composer == c.(index := r.value.composer.index) && r.value.composer.index == Up(c.index, |List(c)|)
    ensures k == Other || (!IsOpen(c) && k != Enter(false)) ==> r == Success(Pressed(c, None))
  {
    if IsOpen(c) then
      var list := List(c);
      match k
      case ArrowDown => Success(Pressed(c.(index := Down(c.index, |list|)), None))
      case ArrowUp => Success(Pressed(c.(index := Up(c.index, |list|)), None))
      case Enter(_) =>
        if c.index < |list| then Success(Pressed(Select(c, list[c.index].name, Trigger(c)), None))
        else Failure(NoRow(c.index))
      case Escape => Success(Pressed(c.(showSkills := false, showAudiences := false), None))
      case Other => Success(Pressed(c, None))
    else if k == Enter(false) then Success(Send(c))
    else Success(Pressed(c, None))
  }

  /** `onMouseEnter` on row i of the shown list highlights it. */
  function Hover(c: Composer, i: nat): (r: Composer)
    requires IsOpen(c) && i < |List(c)|
    ensures r.index == i && r.value == c.value && List(r) == List(c)
    ensures r == c.(index := r.index)
  {
    c.(index := i)
  }

  /** The composer starts valid, and every handler keeps it valid. */
  lemma HandlersKeepValid(c: Composer, val: string, k: Key, i: nat)
    requires Valid(c)
    ensures Valid(Initial)
    ensures Valid(Input(c, val))
    ensures KeyDown(c, k).Success? && Valid(KeyDown(c, k).value.composer)
    ensures IsOpen(c) && i < |List(c)| ==> Valid(Hover(c, i))
    ensures IsOpen(c) && i < |List(c)| ==> Valid(Select(c, List(c)[i].name, Trigger(c)))
    ensures Valid(Send(c).composer)
  {
  }

  /** A user event: typing (the whole new text), a key, the mouse entering or clicking row i,
      or a click on the send button. */
  datatype Event = Typed(text: string) | Press(key: Key) | Hovered(row: nat) | Clicked(row: nat) | SendClicked

  /** One event. Rows are only rendered while a picker is up, so a mouse event naming no
      rendered row cannot occur and changes nothing. A row click inserts that row, whichever
      is highlighted; the send button calls `handleSend` whether or not a picker is up. */
  function Step(c: Composer, e: Event): (r: Result<Pressed, Fault>)
    ensures r.Success? && r.value.sent.Some? ==>
      (e == Press(Enter(false)) || e == SendClicked) && r.value.sent == Send(c).sent
  {
    match e
    case Typed(t) => Success(Pressed(Input(c, t), None))
    case Press(k) => KeyDown(c, k)
    case Hovered(i) => Success(Pressed(if IsOpen(c) && i < |List(c)| then Hover(c, i) else c, None))
    case Clicked(i) =>
      Success(Pressed(if IsOpen(c) && i < |List(c)| then Select(c, List(c)[i].name, Trigger(c)) else c, None))
    case SendClicked => Success(Send(c))
  }

  /** A session of events from a state: the final composer and every text sent on the way,
      or the first fault. */
  function Run(c: Composer, events: seq<Event>): (r: Result<(Composer, seq<string>), Fault>)
    decreases |events|
  {
    if |events| == 0 then Success((c, []))
    else
      match Step(c, events[0])
      case Failure(e) => Failure(e)
      case Success(p) =>
        match Run(p.composer, events[1..])
        case Failure(e) => Failure(e)
        case Success(rest) =>
          Success((rest.0, (if p.sent.Some? then [p.sent.value] else []) + rest.1))
  }

  /** From a valid composer no session ever reaches a highlighted row that does not exist:
      Enter on an open picker always finds its row, and the state stays valid throughout. */
  lemma {:induction false} RunNeverFaults(c: Composer, events: seq<Event>)
    requires Valid(c)
    ensures Run(c, events).Success? && Valid(Run(c, events).value.0)
    decreases |events|
  {
    if |events| > 0 {
      var e := events[0];
      var i := if e.Hovered? || e.Clicked? then e.row else 0;
      HandlersKeepValid(c, if e.Typed? then e.text else "", if e.Press? then e.key else Other, i);
      RunNeverFaults(Step(c, e).value.composer, events[1..]);
    }
  }

  /** Everything a session sends is non-blank and trimmed at both ends. */
  lemma {:induction false} RunSendsTrimmed(c: Composer, events: seq<Event>)
    requires Run(c, events).Success?
    ensures AllTrimmed(Run(c, events).value.1)
    decreases |events|
  {
    if |events| > 0 {
      var p := Step(c, events[0]).value;
      RunSendsTrimmed(p.composer, events[1..]);
      var head := if p.sent.Some? then [p.sent.value] else [];
      assert AllTrimmed(head);
      ConcatTrimmed(head, Run(p.composer, events[1..]).value.1);
    }
  }

  predicate AllTrimmed(ss: seq<string>) {
    forall j :: 0 <= j < |ss| ==> Trimmed(ss[j])
  }

  lemma ConcatTrimmed(a: seq<string>, b: seq<string>)
    requires AllTrimmed(a) && AllTrimmed(b)
    ensures AllTrimmed(a + b)
  {
    forall j | 0 <= j < |a + b| ensures Trimmed((a + b)[j]) {
      if j >= |a| {
        assert (a + b)[j] == b[j - |a|];
      }
    }
  }

  /** Without a picker up, an unshifted Enter sends exactly the non-blank text, trimmed. */
  lemma EnterSends(c: Composer)
    requires !IsOpen(c)
    ensures KeyDown(c, Enter(false)).value.sent == (if AllWhite(c.value) then None else Some(Trim(c.value)))
  {
    assert KeyDown(c, Enter(false)) == Success(Send(c));
    TrimEmpty(c.value);
  }

  /** With a picker up, Enter inserts the highlighted row instead, shifted or not, and nothing
      is sent. */
  lemma EnterSelects(c: Composer, shift: bool)
    requires Valid(c) && IsOpen(c)
    ensures KeyDown(c, Enter(shift)).value == Pressed(Select(c, List(c)[c.index].name, Trigger(c)), None)
  {
    if c.showSkills {
      assert List(c) == Skills;
    } else {
      assert List(c) == Audiences;
    }
  }

  /** The send button bypasses the picker: with a picker up and non-blank text, a click sends
      the trimmed text, where Enter would have inserted a row and sent nothing. */
  lemma SendButtonIgnoresPicker(c: Composer)
    requires Valid(c) && IsOpen(c) && !AllWhite(c.value)
    ensures Step(c, SendClicked).value.sent == Some(Trim(c.value))
    ensures Step(c, Press(Enter(false))).value.sent == None
  {
    assert Step(c, SendClicked) == Success(Send(c));
    if c.showSkills {
      assert List(c) == Skills;
    } else {
      assert List(c) == Audiences;
    }
  }

  /** Clicking row i inserts row i, not the highlighted one: the text then ends with the
      trigger, that row's name and a space, and both pickers are closed. */
  lemma ClickSelectsRow(c: Composer, i: nat)
    requires IsOpen(c) && i < |List(c)|
    ensures var p := Step(c, Clicked(i)).value; var x := [Trigger(c)] + List(c)[i].name + " ";
      && p.sent == None && !IsOpen(p.composer)
      && |p.composer.value| >= |x| && p.composer.value[|p.composer.value| - |x|..] == x
  {
    StepClicked(c, i);
    SelectEnds(c, List(c)[i].name, Trigger(c));
  }

  /** Pointing at a row and pressing Enter does what clicking it does: the hover highlights
      exactly that row and leaves the pickers as they were, so Enter inserts its name and sends
      nothing. The two differ only in the kept highlight, which the closed pickers no longer use. */
  lemma HoverThenEnter(c: Composer, i: nat, shift: bool)
    requires Valid(c) && IsOpen(c) && i < |List(c)|
    ensures var a := Step(Hover(c, i), Press(Enter(shift))); var b := Step(c, Clicked(i));
      && a.Success? && b.Success? && a.value.sent == b.value.sent == None
      && a.value.composer == b.value.composer.(index := i)
  {
    var h := Hover(c, i);
    HoverEnter(h, shift);
    StepClicked(c, i);
    SelectIndex(c, List(c)[i].name, Trigger(c), i);
  }

  /** Selection does not look at the highlight. */
  lemma SelectIndex(c: Composer, name: string, t: char, i: nat)
    ensures Select(c.(index := i), name, t) == Select(c, name, t).(index := i)
  {
  }

  lemma HoverEnter(h: Composer, shift: bool)
    requires Valid(h) && IsOpen(h)
    ensures Step(h, Press(Enter(shift))) == Success(Pressed(Select(h, List(h)[h.index].name, Trigger(h)), None))
  {
    if h.showSkills {
      assert List(h) == Skills;
    } else {
      assert List(h) == Audiences;
    }
  }

  lemma StepClicked(c: Composer, i: nat)
    requires IsOpen(c) && i < |List(c)|
    ensures Step(c, Clicked(i)) == Success(Pressed(Select(c, List(c)[i].name, Trigger(c)), None))
  {
    var e := Clicked(i);
    assert e.Clicked? && e.row == i;
    if c.showSkills {
      assert List(c) == Skills;
    } else {
      assert List(c) == Audiences;
    }
  }

  /** A selection closes the pickers and leaves the text ending in the trigger, the name and a space. */
  lemma SelectEnds(c: Composer, name: string, trigger: char)
    requires !IsWhite(trigger)
    ensures var v := Select(c, name, trigger); var x := [trigger] + name + " ";
      !IsOpen(v) && |v.value| >= |x| && v.value[|v.value| - |x|..] == x
  {
    SelectReplacesWord(c, name, trigger);
  }

  /** Typing a trigger as a new word opens its picker at the first row. */
  lemma TriggerOpensPicker(c: Composer, before: string, ch: char)
    requires before == "" || before[|before| - 1] == ' '
    requires ch == '/' || ch == '@'
    ensures var r := Input(c, before + [ch]);
      && IsOpen(r) && r.index == 0 && (r.showSkills <==> ch == '/') && (r.showAudiences <==> ch == '@')
  {
    var s := before + [ch];
    assert WordAt(s, |before|) by {
      assert s[|before|..] == [ch];
      if |before| > 0 { assert s[|before| - 1] == before[|before| - 1]; }
    }
    InputOpensOnTrigger(c, s);
  }
}

=== FILE: demo.dfy ===
/** `runDemo` and the drawer's session buttons: a run resets the conversation to the demo
    greeting, plays the chosen scenario under the operator's control, and always ends idle. */
module Demo {
  import opened Wrappers
  import opened Messages
  import Store
  import P = Playback
  import opened Script
  import Catalog

  /** Opaque placeholders for the two greetings. */
  const DemoGreetingText := "greeting.demo"
  const SessionGreetingText := "greeting.session"

  /** What the drawer keeps between user actions: what it shows and the playback flags. */
  datatype Drawer = Drawer(scene: Scene, control: P.Control)

  /** The single message a demo run starts from. */
  function DemoGreeting(stamp: Stamp): Message {
    Plain(stamp, Assistant, DemoGreetingText)
  }

  /** The scene a run of a scenario starts from: the log replaced by the demo greeting, the
      composer, typing indicator and profile overlay left as they were. */
  function Opening(d: Drawer, greet: Stamp): (s: Scene)
    ensures s.log == [DemoGreeting(greet)]
    ensures s.composer == d.scene.composer && s.typing == d.scene.typing && s.profile == d.scene.profile
  {
    d.scene.(log := Store.Reset(DemoGreeting(greet)))
  }

  /** `runDemo(id)` on a script: install the playing flags, reset the log, play the steps, and
      on the way out (normally or by STOPPED) clear the flags. A run still inside a wait when the
      operator's input ends is reported as it stands, still playing. */
  function Play(d: Drawer, id: string, steps: seq<Step>, env: seq<P.Op>, greet: Stamp, stamp: Stamp): (o: Outcome)
    ensures o.status != Suspended ==> o.control == P.Idle
    ensures o.status == Suspended ==> o.control.isPlaying && o.control.scenario == Some(id)
    ensures |o.pending| <= |env| && o.pending == env[|env| - |o.pending|..]
  {
    var o := Exec(Opening(d, greet), P.Start(id), Compile(steps), env, stamp);
    if o.status == Suspended then o else o.(control := P.Settle(o.control))
  }

  /** `runDemo(id)`: the scenario the id selects, possibly none. */
  function RunDemo(d: Drawer, id: string, env: seq<P.Op>, greet: Stamp, stamp: Stamp): Outcome {
    Play(d, id, Catalog.Lookup(id), env, greet, stamp)
  }

  /** Whatever the run did before it stopped, the log it leaves is the demo greeting followed by
      the effects of the primitives it finished: the previous conversation is gone. */
  lemma PlayScene(d: Drawer, id: string, steps: seq<Step>, env: seq<P.Op>, greet: Stamp, stamp: Stamp)
    ensures var o := Play(d, id, steps, env, greet, stamp); var prog := Compile(steps);
      o.scene == ApplyAll(Opening(d, greet), prog[..|prog| - |o.rest|], stamp)
  {
    ExecScene(Opening(d, greet), P.Start(id), Compile(steps), env, stamp);
    PlayExec(d, id, steps, env, greet, stamp);
  }

  /** Settling the flags at the end leaves the scene and the position in the script alone. */
  lemma PlayExec(d: Drawer, id: string, steps: seq<Step>, env: seq<P.Op>, greet: Stamp, stamp: Stamp)
    ensures var o := Play(d, id, steps, env, greet, stamp);
      var e := Exec(Opening(d, greet), P.Start(id), Compile(steps), env, stamp);
      o.scene == e.scene && o.rest == e.rest
  {
  }

  /** An id the chain of scenarios does not know is not a no-op: the log is still reset to the
      demo greeting, and the flags still come back to idle. */
  lemma UnknownScenario(d: Drawer, id: string, env: seq<P.Op>, greet: Stamp, stamp: Stamp)
    requires id !in {"s1", "s2", "s3", "s4"}
    ensures var o := RunDemo(d, id, env, greet, stamp);
      && o.status == Completed && o.control == P.Idle && o.pending == env
      && o.scene.log == [DemoGreeting(greet)]
  {
    assert Catalog.Lookup(id) == [];
    assert Compile([]) == [];
  }

  /** Pressing stop during the k-th tick ends the run within one tick, and the drawer is idle. */
  lemma StopEndsDemo(d: Drawer, id: string, steps: seq<Step>, env: seq<P.Op>, greet: Stamp, stamp: Stamp, k: nat)
    requires k < |env| && env[k] == P.StopOp
    ensures var o := Play(d, id, steps, env, greet, stamp);
      o.status != Suspended && o.control == P.Idle && |env| - |o.pending| <= k + 1
  {
    StopEndsRun(Opening(d, greet), P.Start(id), Compile(steps), env, stamp, k);
  }

  /** Left alone for long enough, a run plays its script to the end: the log is the demo
      greeting followed by the script's transcript, and the drawer is idle again. */
  lemma QuietDemo(d: Drawer, id: string, steps: seq<Step>, env: seq<P.Op>, greet: Stamp, stamp: Stamp)
    requires P.Quiet(env) && |env| >= Duration(Compile(steps))
    ensures var o := Play(d, id, steps, env, greet, stamp);
      && o.status == Completed && o.control == P.Idle
      && o.scene.log == Transcript([DemoGreeting(greet)], steps, stamp)
  {
    QuietExec(Opening(d, greet), P.Start(id), Compile(steps), env, stamp);
    CompileLog(Opening(d, greet), steps, stamp);
  }

  /** At every point of a run of a sound script, every task list in the conversation is sound. */
  lemma PlaySound(d: Drawer, id: string, steps: seq<Step>, env: seq<P.Op>, greet: Stamp, stamp: Stamp)
    requires ScriptSound(steps)
    ensures LogSound(Play(d, id, steps, env, greet, stamp).scene.log)
  {
    var prog := Compile(steps);
    var o := Play(d, id, steps, env, greet, stamp);
    PlayScene(d, id, steps, env, greet, stamp);
    CompileSound(steps);
    var done := prog[..|prog| - |o.rest|];
    assert forall j :: 0 <= j < |done| ==> done[j] == prog[j];
    ApplyAllSound(Opening(d, greet), done, stamp);
  }

  /** Every run of every scenario keeps every task list in the conversation sound. */
  lemma DemoLogSound(d: Drawer, id: string, env: seq<P.Op>, greet: Stamp, stamp: Stamp)
    ensures LogSound(RunDemo(d, id, env, greet, stamp).scene.log)
  {
    Catalog.ScenariosSound(id);
    PlaySound(d, id, Catalog.Lookup(id), env, greet, stamp);
  }

  /** The "new session" button: stop any run and start over from the plain greeting. */
  function NewSession(d: Drawer, stamp: Stamp): (r: Drawer)
    ensures r.control == P.Idle && |r.scene.log| == 1 && r.scene.log[0].role == Assistant
    ensures r.scene.log == [Plain(stamp, Assistant, SessionGreetingText)]
    ensures r.scene == d.scene.(log := r.scene.log)
  {
    Drawer(d.scene.(log := Store.Reset(Plain(stamp, Assistant, SessionGreetingText))), P.Stop(d.control))
  }

  /** The picker's own condition: a fresh conversation with nothing playing. The picker also
      needs the history panel closed, which this model does not track. */
  predicate PickerShown(d: Drawer) {
    |d.scene.log| == 1 && !d.control.isPlaying
  }

  /** A fresh session offers the picker again, and so does a run of an unknown id. */
  lemma PickerReturns(d: Drawer, id: string, env: seq<P.Op>, greet: Stamp, stamp: Stamp)
    ensures PickerShown(NewSession(d, stamp))
    ensures id !in {"s1", "s2", "s3", "s4"} ==>
      var o := RunDemo(d, id, env, greet, stamp); PickerShown(Drawer(o.scene, o.control))
  {
    if id !in {"s1", "s2", "s3", "s4"} {
      UnknownScenario(d, id, env, greet, stamp);
    }
  }

  /** A known scenario played to its end leaves a conversation longer than the greeting,
      so the picker stays hidden. */
  lemma ScenarioHidesPicker(d: Drawer, id: string, env: seq<P.Op>, greet: Stamp, stamp: Stamp)
    requires id in {"s1", "s2", "s3", "s4"}
    requires P.Quiet(env) && |env| >= Duration(Compile(Catalog.Lookup(id)))
    ensures var o := RunDemo(d, id, env, greet, stamp); !PickerShown(Drawer(o.scene, o.control))
  {
    QuietDemo(d, id, Catalog.Lookup(id), env, greet, stamp);
    TranscriptLength([DemoGreeting(greet)], Catalog.Lookup(id), stamp);
    Catalog.ScenariosPost(id);
  }
}

=== FILE: floating.dfy ===
/** The floating assistant ball: while the drawer is closed, a 5-second interval cycles the
    ball's status idle, executing, attention, idle, ...; while the drawer is open no interval
    runs and the status holds. Clicking the ball opens the drawer; the drawer's close button
    closes it. */
module Floating {

  datatype Status = Idle | Executing | Attention

  /** The interval's period in milliseconds. */
  const IntervalMs := 5000

  /** The state updater the interval runs. */
  function Next(s: Status): (r: Status)
    ensures r != s
  {
    match s
    case Idle => Executing
    case Executing => Attention
    case Attention => Idle
  }

  datatype Ball = Ball(open: bool, status: Status)

  /** The drawer starts open, with the ball idle. */
  const Initial := Ball(true, Idle)

  /** What can happen: the ball is clicked, the drawer's close button is pressed, or a period of
      the interval elapses. */
  datatype Event = ClickBall | CloseDrawer | Elapsed

  /** One event. The ball is only rendered while the drawer is closed, and the interval only
      exists then, so a click or an elapsed period while it is open changes nothing. */
  function Handle(b: Ball, e: Event): (r: Ball)
    ensures b.open && e != CloseDrawer ==> r == b
    ensures r.open <==> (e == ClickBall || (b.open && e != CloseDrawer))
    ensures r.status != b.status <==> !b.open && e == Elapsed
  {
    match e
    case ClickBall => b.(open := true)
    case CloseDrawer => b.(open := false)
    case Elapsed => if b.open then b else b.(status := Next(b.status))
  }

  /** `Next` applied k times. */
  function Iterate(s: Status, k: nat): Status {
    if k == 0 then s else Next(Iterate(s, k - 1))
  }

  /** Three steps bring every status back to itself, and no fewer do. */
  lemma CycleOfThree(s: Status)
    ensures Iterate(s, 3) == s
    ensures Iterate(s, 1) != s && Iterate(s, 2) != s
  {
  }

  /** Any number of whole cycles is the identity. */
  lemma {:induction false} WholeCycles(s: Status, k: nat)
    ensures Iterate(s, 3 * k) == s
  {
    if k > 0 {
      WholeCycles(s, k - 1);
      IterateAdd(s, 3 * (k - 1), 3);
      CycleOfThree(Iterate(s, 3 * (k - 1)));
    }
  }

  /** Iterating a then b times is iterating a + b times. */
  lemma {:induction false} IterateAdd(s: Status, a: nat, b: nat)
    ensures Iterate(Iterate(s, a), b) == Iterate(s, a + b)
    decreases b
  {
    if b > 0 {
      IterateAdd(s, a, b - 1);
    }
  }

  /** The status after k periods depends only on k modulo 3. */
  lemma PeriodThree(s: Status, k: nat)
    ensures Iterate(s, k) == Iterate(s, k % 3)
  {
    var q := k / 3;
    WholeCycles(s, q);
    IterateAdd(s, 3 * q, k % 3);
  }

  /** The number of periods that elapse while the drawer is closed. */
  function ClosedPeriods(b: Ball, events: seq<Event>): nat
    decreases |events|
  {
    if |events| == 0 then 0
    else (if !b.open && events[0] == Elapsed then 1 else 0) + ClosedPeriods(Handle(b, events[0]), events[1..])
  }

  /** A run of events. */
  function Run(b: Ball, events: seq<Event>): Ball
    decreases |events|
  {
    if |events| == 0 then b else Run(Handle(b, events[0]), events[1..])
  }

  /** Whatever the clicks and closes, the status is the starting one moved on by the number of
      periods that elapsed with the drawer closed. */
  lemma {:induction false} RunCycles(b: Ball, events: seq<Event>)
    ensures Run(b, events).status == Iterate(b.status, ClosedPeriods(b, events))
    decreases |events|
  {
    if |events| > 0 {
      var b' := Handle(b, events[0]);
      RunCycles(b', events[1..]);
      var k := ClosedPeriods(b', events[1..]);
      if !b.open && events[0] == Elapsed {
        IterateAdd(b.status, 1, k);
      } else {
        assert b'.status == b.status;
      }
    }
  }

  /** With the drawer open throughout, the status never moves. */
  lemma {:induction false} OpenHolds(b: Ball, events: seq<Event>)
    requires b.open
    requires forall i :: 0 <= i < |events| ==> events[i] != CloseDrawer
    ensures Run(b, events) == b
    decreases |events|
  {
    if |events| > 0 {
      OpenHolds(Handle(b, events[0]), events[1..]);
    }
  }

  /** The notification dot on the ball shows exactly when the ball is visible and wants
      attention. */
  predicate DotShown(b: Ball) {
    !b.open && b.status == Attention
  }

  /** From the start, closing the drawer and waiting two periods raises the dot, and a third
      period lowers it again. */
  lemma DotAfterTwoPeriods()
    ensures DotShown(Run(Initial, [CloseDrawer, Elapsed, Elapsed]))
    ensures !DotShown(Run(Initial, [CloseDrawer, Elapsed, Elapsed, Elapsed]))
  {
    assert [CloseDrawer, Elapsed, Elapsed][1..] == [Elapsed, Elapsed];
    assert [Elapsed, Elapsed][1..] == [Elapsed];
    assert [CloseDrawer, Elapsed, Elapsed, Elapsed][1..] == [Elapsed, Elapsed, Elapsed];
    assert [Elapsed, Elapsed, Elapsed][1..] == [Elapsed, Elapsed];
  }
}

=== FILE: messages.dfy ===
/** The conversation's records: messages, the task pipeline widget and the cards a message carries. */
module Messages {
  import opened Wrappers

  datatype Role = User | Assistant

  datatype TaskStatus = Pending | Processing | Done | Error

  /** One stage of a pipeline shown inside a message; `progress` is a percentage. */
  datatype Task = Task(id: string, name: string, status: TaskStatus, progress: int)

  datatype AudienceSample = AudienceSample(id: string, name: string, avatar: string, tags: seq<string>, reason: string)

  datatype AudienceCard = AudienceCard(totalCount: int, samples: seq<AudienceSample>)

  /** A content draft; `kind` is the source's `type` field. */
  datatype CopyCard = CopyCard(content: string, kind: string)

  datatype ConfirmCard = ConfirmCard(title: string, count: int, contentSnapshot: string, target: Option<string>)

  /** A card field holding either a single card or a list of them. */
  datatype OneOrMany<T> = One(item: T) | Many(items: seq<T>)

  /** A button under a message; `caption` is the source's `label` field. */
  datatype ActionButton = ActionButton(caption: string, action: string, primary: Option<bool>)

  /** The opaque identity of a message: its id string and its creation time.
      Nothing here assumes two stamps differ. */
  datatype Stamp = Stamp(id: string, time: nat)

  datatype Message = Message(
    stamp: Stamp,
    role: Role,
    content: string,
    tasks: Option<seq<Task>>,
    audienceCard: Option<AudienceCard>,
    copyCard: Option<OneOrMany<CopyCard>>,
    confirmCard: Option<OneOrMany<ConfirmCard>>,
    isError: Option<bool>,
    actionButtons: Option<seq<ActionButton>>)

  /** A plain text message with no cards. */
  function Plain(stamp: Stamp, role: Role, content: string): Message {
    Message(stamp, role, content, None, None, None, None, None, None)
  }

  /** The placeholder for free text the model does not interpret: task names, audience
      descriptions, button labels and copy. */
  const Prose := "prose"

  /** The fields of an assistant message a script supplies; the rest are filled in on emission. */
  datatype Reply = Reply(
    content: string,
    tasks: Option<seq<Task>>,
    audienceCard: Option<AudienceCard>,
    copyCard: Option<OneOrMany<CopyCard>>,
    confirmCard: Option<OneOrMany<ConfirmCard>>,
    actionButtons: Option<seq<ActionButton>>)

  function Said(content: string): Reply {
    Reply(content, None, None, None, None, None)
  }

  /** The assistant message built from a reply: a fresh stamp, the assistant role and the reply's fields. */
  function FromReply(stamp: Stamp, r: Reply): (m: Message)
    ensures m.role == Assistant && m.stamp == stamp
    ensures m.content == r.content && m.tasks == r.tasks && m.audienceCard == r.audienceCard
    ensures m.copyCard == r.copyCard && m.confirmCard == r.confirmCard
    ensures m.actionButtons == r.actionButtons && m.isError == None
  {
    Message(stamp, Assistant, r.content, r.tasks, r.audienceCard, r.copyCard, r.confirmCard, None, r.actionButtons)
  }

  /** A scripted `{ ...msg, field: value }` rewrite of the last message. */
  datatype Patch = Patch(
    tasks: Update<seq<Task>>,
    audienceCard: Update<AudienceCard>,
    copyCard: Update<OneOrMany<CopyCard>>,
    actionButtons: Update<seq<ActionButton>>)

  /** `msg => ({ ...msg, actionButtons: undefined })` */
  const DropButtons := Patch(Keep, Keep, Keep, Clear)

  function ApplyPatch(m: Message, p: Patch): (r: Message)
    ensures r.stamp == m.stamp && r.role == m.role && r.content == m.content
    ensures r.confirmCard == m.confirmCard && r.isError == m.isError
    ensures p.tasks.Keep? ==> r.tasks == m.tasks
    ensures p.tasks.Clear? ==> r.tasks == None
    ensures p.tasks.Set? ==> r.tasks == Some(p.tasks.value)
    ensures p.audienceCard.Keep? ==> r.audienceCard == m.audienceCard
    ensures p.audienceCard.Clear? ==> r.audienceCard == None
    ensures p.audienceCard.Set? ==> r.audienceCard == Some(p.audienceCard.value)
    ensures p.copyCard.Keep? ==> r.copyCard == m.copyCard
    ensures p.copyCard.Clear? ==> r.copyCard == None
    ensures p.copyCard.Set? ==> r.copyCard == Some(p.copyCard.value)
    ensures p.actionButtons.Keep? ==> r.actionButtons == m.actionButtons
    ensures p.actionButtons.Clear? ==> r.actionButtons == None
    ensures p.actionButtons.Set? ==> r.actionButtons == Some(p.actionButtons.value)
  {
    m.(tasks := p.tasks.Over(m.tasks),
       audienceCard := p.audienceCard.Over(m.audienceCard),
       copyCard := p.copyCard.Over(m.copyCard),
       actionButtons := p.actionButtons.Over(m.actionButtons))
  }

  /** The pipeline invariant: a finished task shows 100%, a running one shows less. */
  predicate TaskSound(t: Task) {
    && 0 <= t.progress <= 100
    && (t.status == Done ==> t.progress == 100)
    && (t.status == Processing ==> t.progress < 100)
  }

  predicate TasksSound(ts: seq<Task>) {
    forall i :: 0 <= i < |ts| ==> TaskSound(ts[i])
  }

  predicate OptTasksSound(ts: Option<seq<Task>>) {
    ts.Some? ==> TasksSound(ts.value)
  }

  predicate MessageSound(m: Message) {
    OptTasksSound(m.tasks)
  }

  predicate LogSound(log: seq<Message>) {
    forall i :: 0 <= i < |log| ==> MessageSound(log[i])
  }

  predicate PatchSound(p: Patch) {
    p.tasks.Set? ==> TasksSound(p.tasks.value)
  }

  /** A patch whose task list is sound keeps a sound message sound. */
  lemma PatchKeepsSound(m: Message, p: Patch)
    requires MessageSound(m) && PatchSound(p)
    ensures MessageSound(ApplyPatch(m, p))
  {
  }

  /** The list a task belongs to never gets worse: every task keeps at least its progress,
      and a finished task stays finished. */
  predicate Advances(before: seq<Task>, after: seq<Task>) {
    && |before| == |after|
    && forall i :: 0 <= i < |before| ==>
         && after[i].progress >= before[i].progress
         && (before[i].status == Done ==> after[i].status == Done)
  }
}

=== FILE: playback.dfy ===
/** The demo's playback flags and its cooperative `sleep`: a loop of 100 ms ticks that checks
    the stop flag first and only advances while not paused. */
module Playback {
  import opened Wrappers

  /** `demoState`: whether a demo runs, whether it is paused, and which scenario it plays. */
  datatype Control = Control(isPlaying: bool, isPaused: bool, scenario: Option<string>)

  const Idle := Control(false, false, None)

  /** The granularity of every wait, in milliseconds. */
  const TickMs: nat := 100

  /** The state `runDemo` installs before it plays a scenario. */
  function Start(id: string): (c: Control)
    ensures c.isPlaying && !c.isPaused && c.scenario == Some(id)
  {
    Control(true, false, Some(id))
  }

  /** `pauseDemo`: flips the pause flag and nothing else. */
  function TogglePause(c: Control): (r: Control)
    ensures r.isPaused == !c.isPaused
    ensures r.isPlaying == c.isPlaying && r.scenario == c.scenario
  {
    c.(isPaused := !c.isPaused)
  }

  /** `stopDemo`: forgets the previous state entirely. */
  function Stop(c: Control): (r: Control)
    ensures !r.isPlaying && !r.isPaused && r.scenario.None?
  {
    Idle
  }

  /** The `finally` of `runDemo`: the previous state with all three fields overwritten. */
  function Settle(c: Control): (r: Control)
    ensures !r.isPlaying && !r.isPaused && r.scenario.None?
  {
    c.(isPlaying := false, isPaused := false, scenario := None)
  }

  lemma PauseTwice(c: Control)
    ensures TogglePause(TogglePause(c)) == c
  {
  }

  /** However a run ends, the flags come back to idle, the same as an explicit stop. */
  lemma SettleIsStop(c: Control)
    ensures Settle(c) == Stop(c) == Idle
  {
  }

  /** What the operator may do while one tick's timer runs: nothing, press pause/resume, or press stop. */
  datatype Op = NoOp | PauseOp | StopOp

  function Apply(op: Op, c: Control): Control {
    match op
    case NoOp => c
    case PauseOp => TogglePause(c)
    case StopOp => Stop(c)
  }

  /** Once stopped, no operator action restarts a run. */
  lemma StoppedStaysStopped(op: Op, c: Control)
    requires !c.isPlaying
    ensures !Apply(op, c).isPlaying
  {
  }

  datatype TickResult = Stopped | Advanced(elapsed: nat)

  /** One iteration of `sleep`'s loop body: stop wins over pause, and a paused tick keeps the clock. */
  function Tick(c: Control, elapsed: nat): (r: TickResult)
    ensures r.Stopped? <==> !c.isPlaying
    ensures r.Advanced? ==> r.elapsed == if c.isPaused then elapsed else elapsed + TickMs
  {
    if !c.isPlaying then Stopped
    else if c.isPaused then Advanced(elapsed)
    else Advanced(elapsed + TickMs)
  }

  datatype SleepStatus =
    | Slept     // the loop condition `elapsed < ms` failed
    | Halted    // the stop check threw
    | Waiting   // a tick's timer is still running: the operator's input ends here

  /** Where a `sleep` got to: its status, the flags and clock it ended with, the operator
      input left over, how many ticks' timers ran out, and how many ticks advanced the clock. */
  datatype SleepResult = SleepResult(
    status: SleepStatus, control: Control, elapsed: nat, rest: seq<Op>, ticks: nat, active: nat)

  /** `sleep(ms)` resumed at `elapsed`, with `env[k]` the operator's action during the k-th tick's timer. */
  function Sleep(ms: int, elapsed: nat, c: Control, env: seq<Op>): (r: SleepResult)
    ensures r.ticks == |env| - |r.rest| && r.rest == env[r.ticks..]
    ensures r.elapsed == elapsed + TickMs * r.active
    ensures r.active <= r.ticks + 1
    ensures r.status == Slept ==> ms <= r.elapsed && (elapsed < ms ==> r.elapsed < ms + TickMs)
    ensures r.status == Halted ==> !r.control.isPlaying && r.elapsed < ms
    ensures r.status == Waiting ==> r.rest == [] && r.control.isPlaying
    ensures r.control.isPlaying ==> c.isPlaying && r.control.scenario == c.scenario
    decreases |env|
  {
    if elapsed >= ms then SleepResult(Slept, c, elapsed, env, 0, 0)
    else match Tick(c, elapsed)
      case Stopped => SleepResult(Halted, c, elapsed, env, 0, 0)
      case Advanced(next) =>
        var step := if c.isPaused then 0 else 1;
        if |env| == 0 then SleepResult(Waiting, c, next, [], 0, step)
        else
          var r := Sleep(ms, next, Apply(env[0], c), env[1..]);
          r.(ticks := r.ticks + 1, active := r.active + step)
  }

  /** `⌈n / 100⌉` for non-negative `n`. */
  function Ticks(n: nat): nat {
    (n + TickMs - 1) / TickMs
  }

  /** Pauses cost nothing: a finished `sleep(ms)` advanced the clock on exactly ⌈ms/100⌉ ticks. */
  lemma SleptTicks(ms: nat, c: Control, env: seq<Op>)
    requires Sleep(ms, 0, c, env).status == Slept
    ensures Sleep(ms, 0, c, env).active == Ticks(ms)
  {
    var r := Sleep(ms, 0, c, env);
    if ms > 0 {
      assert ms <= TickMs * r.active < ms + TickMs;
    }
  }

  predicate Quiet(env: seq<Op>) {
    forall k :: 0 <= k < |env| ==> env[k] == NoOp
  }

  /** With nobody touching the controls, `sleep(ms)` from a playing, unpaused state
      takes exactly ⌈ms/100⌉ ticks and leaves the rest of the input alone. */
  lemma {:induction false} QuietSleep(ms: int, elapsed: nat, c: Control, env: seq<Op>)
    requires c.isPlaying && !c.isPaused && Quiet(env)
    requires elapsed <= ms && |env| >= Ticks(ms - elapsed)
    ensures var r := Sleep(ms, elapsed, c, env);
      && r.status == Slept && r.control == c
      && r.ticks == r.active == Ticks(ms - elapsed)
    decreases ms - elapsed
  {
    if elapsed < ms {
      assert env[0] == NoOp;
      if ms - elapsed > TickMs {
        assert Ticks(ms - elapsed) == Ticks(ms - elapsed - TickMs) + 1;
        assert Quiet(env[1..]);
        QuietSleep(ms, elapsed + TickMs, c, env[1..]);
      }
    }
  }

  /** `type` waits 30 ms after each character: with no interruption that is a single tick. */
  lemma ShortSleepIsOneTick(c: Control, env: seq<Op>)
    requires c.isPlaying && !c.isPaused && Quiet(env) && |env| >= 1
    ensures Sleep(30, 0, c, env) == SleepResult(Slept, c, TickMs, env[1..], 1, 1)
  {
    var r := Sleep(TickMs, TickMs, c, env[1..]);
    assert r == SleepResult(Slept, c, TickMs, env[1..], 0, 0);
  }

  /** A paused tick leaves the clock where it was; only the operator's input moves on. */
  lemma PausedTickHolds(ms: int, elapsed: nat, c: Control, env: seq<Op>)
    requires c.isPlaying && c.isPaused && elapsed < ms && |env| > 0
    ensures var r := Sleep(ms, elapsed, c, env); var r' := Sleep(ms, elapsed, Apply(env[0], c), env[1..]);
      r == r'.(ticks := r'.ticks + 1)
  {
  }

  /** A stopped run never advances: the first check of a pending `sleep` throws. */
  lemma StoppedSleepHalts(ms: int, elapsed: nat, c: Control, env: seq<Op>)
    requires !c.isPlaying && elapsed < ms
    ensures Sleep(ms, elapsed, c, env) == SleepResult(Halted, c, elapsed, env, 0, 0)
  {
  }

  /** A stop pressed during the k-th tick's timer is seen by the very next check: the `sleep`
      either throws there, having consumed no input beyond the stop, or had already run to its end,
      in which case it hands back stopped flags or the stop still unconsumed. */
  lemma {:induction false} StopSeenWithinOneTick(ms: int, elapsed: nat, c: Control, env: seq<Op>, k: nat)
    requires k < |env| && env[k] == StopOp
    ensures var r := Sleep(ms, elapsed, c, env);
      || (r.status == Halted && r.ticks <= k + 1)
      || (r.status == Slept && r.ticks == k + 1 && r.control == Idle)
      || (r.status == Slept && r.ticks <= k)
    decreases k
  {
    if elapsed < ms && c.isPlaying {
      var next := if c.isPaused then elapsed else elapsed + TickMs;
      var c' := Apply(env[0], c);
      if k == 0 {
        assert c' == Idle;
        if next < ms {
          StoppedSleepHalts(ms, next, c', env[1..]);
        }
      } else {
        StopSeenWithinOneTick(ms, next, c', env[1..], k - 1);
      }
    }
  }
}

=== FILE: router.dfy ===
/** The fallback intent router the drawer uses when no demo is playing: a keyword classifier
    and the fixed, timer-staged replies of the send, confirm and reject handlers. Each stage
    that the source schedules with a timer is its own function here; the caller decides what
    happens in between. */
module Router {
  import opened Wrappers
  import opened Messages
  import Store
  import opened Text
  import Tabs

  /** The part of the drawer the router touches: the log and the typing indicator. These are
      the `log` and `typing` fields of the chat view `Script.Scene`; the router's handlers never
      read or write its composer or profile overlay, so they are not carried here. */
  datatype Chat = Chat(log: seq<Message>, typing: bool)

  /** A failure the source raises as an uncaught exception inside a state updater:
      indexing a task list that is too short. */
  datatype Crash = MissingTask(index: nat)

  // Opaque placeholders for the router's prose.
  const WorkingText := "router.working"
  const CircledText := "router.circled"
  const NoAccountText := "router.no-account"
  const AckText := "router.ack"
  const ConfirmText := "router.confirm"
  const GeneratingText := "router.generating"
  const PushingText := "router.pushing"
  const FinishedText := "router.finished"
  const RejectText := "router.reject"
  const AdjustText := "router.adjust"

  datatype Intent = Pipeline | MissingAccount | Acknowledge

  /** The first-match keyword check of `processAgentLogic`. */
  function Classify(content: string): Intent {
    if Contains(content, "圈选") || Contains(content, "人群") then Pipeline
    else if Contains(content, "推送") && !Contains(content, "账号") then MissingAccount
    else Acknowledge
  }

  /** Classification by occurrences, in priority order: a selection keyword always wins; a push
      request naming no account is an error; everything else is acknowledged. */
  lemma ClassifySpec(content: string)
    ensures Classify(content) == Pipeline <==>
      (exists i :: OccursAt(content, "圈选", i)) || (exists i :: OccursAt(content, "人群", i))
    ensures Classify(content) == MissingAccount <==>
      && (!exists i :: OccursAt(content, "圈选", i)) && (!exists i :: OccursAt(content, "人群", i))
      && (exists i :: OccursAt(content, "推送", i)) && !exists i :: OccursAt(content, "账号", i)
    ensures Classify(content) == Acknowledge <==>
      && (!exists i :: OccursAt(content, "圈选", i)) && (!exists i :: OccursAt(content, "人群", i))
      && ((!exists i :: OccursAt(content, "推送", i)) || exists i :: OccursAt(content, "账号", i))
  {
    ContainsMeansOccurs(content, "圈选");
    ContainsMeansOccurs(content, "人群");
    ContainsMeansOccurs(content, "推送");
    ContainsMeansOccurs(content, "账号");
  }

  const PipelineTasks := [
    Task("t1", Prose, Processing, 50), Task("t2", Prose, Pending, 0), Task("t3", Prose, Pending, 0)]
  const AudienceReply := AudienceCard(1245, [
    AudienceSample("c1", Prose, Prose, [Prose, Prose], Prose),
    AudienceSample("c2", Prose, Prose, [Prose], Prose),
    AudienceSample("c3", Prose, Prose, [Prose], Prose)])
  const ConfirmTasks := [
    Task("t1", Prose, Done, 100), Task("t2", Prose, Processing, 30), Task("t3", Prose, Pending, 0)]

  function Finish(t: Task): Task {
    t.(status := Done, progress := 100)
  }

  /** `handleSendMessage(content)`: while a demo plays nothing happens; otherwise the user's
      message is appended and the typing indicator comes on until the agent answers. */
  function Send(c: Chat, playing: bool, content: string, stamp: Stamp): (r: Chat)
    ensures playing ==> r == c
    ensures !playing ==> && |r.log| == |c.log| + 1 && r.log[..|c.log|] == c.log
                         && r.log[|c.log|] == Plain(stamp, User, content) && r.typing
  {
    if playing then c else Chat(Store.Append(c.log, Plain(stamp, User, content)), true)
  }

  /** `processAgentLogic(content)`, run by the timer one second after the send: the typing
      indicator goes off and exactly one assistant message is appended, chosen by intent. */
  function Answer(c: Chat, content: string, stamp: Stamp): (r: Chat)
    ensures !r.typing && |r.log| == |c.log| + 1 && r.log[..|c.log|] == c.log
    ensures var m := r.log[|c.log|];
      && m.role == Assistant
      && (Classify(content) == Pipeline ==> m.tasks == Some(PipelineTasks) && m.isError == None)
      && (Classify(content) == MissingAccount ==> m.isError == Some(true) && m.tasks == None)
      && (Classify(content) == Acknowledge ==> m.isError == None && m.tasks == None)
  {
    var m := match Classify(content)
      case Pipeline => Plain(stamp, Assistant, WorkingText).(tasks := Some(PipelineTasks))
      case MissingAccount => Plain(stamp, Assistant, NoAccountText).(isError := Some(true))
      case Acknowledge => Plain(stamp, Assistant, AckText);
    Chat(Store.Append(c.log, m), false)
  }

  /** The pipeline follow-up's rewrite of one message: if it carries tasks, the first one
      finishes; an empty list makes `tasks[0]` undefined and the update throws. */
  function FinishFirst(m: Message): (r: Result<Message, Crash>)
    ensures r.Failure? <==> m.tasks == Some([])
    ensures r.Success? ==> r.value.content == m.content && r.value.role == m.role && r.value.stamp == m.stamp
    ensures r.Success? && m.tasks.None? ==> r.value == m
    ensures r.Success? && m.tasks.Some? ==> r.value.tasks.Some? && var ts := r.value.tasks.value;
      && |ts| == |m.tasks.value| && ts[1..] == m.tasks.value[1..]
      && ts[0].status == Done && ts[0].progress == 100
    ensures r.Success? ==> r.value == m.(tasks := r.value.tasks)
    ensures r.Success? && m.tasks.Some? ==>
      r.value.tasks.Some? && |r.value.tasks.value| > 0 && r.value.tasks.value[0] == m.tasks.value[0].(status := Done, progress := 100)
  {
    match m.tasks
    case None => Success(m)
    case Some(ts) =>
      if |ts| == 0 then Failure(MissingTask(0))
      else Success(m.(tasks := Some(ts[0 := Finish(ts[0])])))
  }

  /** The audience reply the pipeline follow-up appends. */
  function CircledReply(stamp: Stamp): Message {
    Plain(stamp, Assistant, CircledText).(audienceCard := Some(AudienceReply))
  }

  /** The pipeline's follow-up two seconds after the answer, as written: it rewrites the LAST
      message, whichever that is, then appends the audience reply. */
  function PipelineFollowUp(c: Chat, stamp: Stamp): (r: Result<Chat, Crash>)
    requires |c.log| > 0
    ensures r.Failure? <==> c.log[|c.log| - 1].tasks == Some([])
    ensures r.Success? ==> && |r.value.log| == |c.log| + 1 && r.value.log[..|c.log| - 1] == c.log[..|c.log| - 1]
                           && r.value.log[|c.log|] == CircledReply(stamp)
    ensures r.Success? ==> r.value.log[|c.log| - 1] == FinishFirst(c.log[|c.log| - 1]).value
  {
    match RewriteAt(c, |c.log| - 1, FinishFirst)
    case Failure(e) => Failure(e)
    case Success(c') => Success(c'.(log := Store.Append(c'.log, CircledReply(stamp))))
  }

  /** The follow-up as intended: it rewrites the message the pipeline answer created, found by
      its stamp, and nothing else. */
  function PipelineFollowUpFixed(c: Chat, flow: Stamp, stamp: Stamp): (r: Result<Chat, Crash>)
    ensures r.Success? ==> && |r.value.log| == |c.log| + 1 && r.value.log[|c.log|] == CircledReply(stamp)
                           && forall j :: 0 <= j < |c.log| && c.log[j].stamp != flow ==> r.value.log[j] == c.log[j]
    ensures r.Success? ==> forall j :: 0 <= j < |c.log| && c.log[j].stamp == flow ==>
      FinishFirst(c.log[j]).Success? && r.value.log[j] == FinishFirst(c.log[j]).value
    ensures r.Failure? <==> exists j :: 0 <= j < |c.log| && c.log[j].stamp == flow && c.log[j].tasks == Some([])
  {
    match RewriteStamped(c.log, flow, FinishFirst)
    case Failure(e) => Failure(e)
    case Success(log) => Success(c.(log := Store.Append(log, CircledReply(stamp))))
  }

  /** `handleAudienceConfirm`: ignored while a demo plays; otherwise the user's confirmation is
      appended and the typing indicator comes on. */
  function Confirm(c: Chat, playing: bool, stamp: Stamp): (r: Chat)
    ensures playing ==> r == c
    ensures !playing ==> && |r.log| == |c.log| + 1 && r.log[..|c.log|] == c.log
                         && r.log[|c.log|] == Plain(stamp, User, ConfirmText) && r.typing
  {
    if playing then c else Chat(Store.Append(c.log, Plain(stamp, User, ConfirmText)), true)
  }

  /** The confirm flow's first timer: typing off, and the pipeline message with the selection
      finished and content generation under way is appended. */
  function ConfirmStage1(c: Chat, stamp: Stamp): (r: Chat)
    ensures !r.typing && |r.log| == |c.log| + 1 && r.log[..|c.log|] == c.log
    ensures r.log[|c.log|].role == Assistant && r.log[|c.log|].tasks == Some(ConfirmTasks)
  {
    Chat(Store.Append(c.log, Plain(stamp, Assistant, GeneratingText).(tasks := Some(ConfirmTasks))), false)
  }

  /** Stage 2's rewrite of one message: tasks[1] finishes, tasks[2] starts at 20%, and the
      content is replaced even when the message has no tasks. */
  function Stage2(m: Message): (r: Result<Message, Crash>)
    ensures r.Failure? <==> m.tasks.Some? && |m.tasks.value| < 3
    ensures r.Success? ==> r.value.content == PushingText && r.value.role == m.role && r.value.stamp == m.stamp
    ensures r.Success? && m.tasks.Some? ==> r.value.tasks.Some? && var ts := r.value.tasks.value;
      && |ts| == |m.tasks.value| && ts[0] == m.tasks.value[0]
      && ts[1].status == Done && ts[1].progress == 100
      && ts[2].status == Processing && ts[2].progress == 20
    ensures r.Success? ==> r.value == m.(tasks := r.value.tasks, content := PushingText)
    ensures r.Success? && m.tasks.None? ==> r.value.tasks.None?
    ensures r.Success? && m.tasks.Some? ==> r.value.tasks.Some? && var ts := r.value.tasks.value;
      && |ts| == |m.tasks.value| && ts[3..] == m.tasks.value[3..]
      && ts[1] == m.tasks.value[1].(status := Done, progress := 100)
      && ts[2] == m.tasks.value[2].(status := Processing, progress := 20)
  {
    match m.tasks
    case None => Success(m.(content := PushingText))
    case Some(ts) =>
      if |ts| < 2 then Failure(MissingTask(1))
      else if |ts| < 3 then Failure(MissingTask(2))
      else Success(m.(tasks := Some(ts[1 := Finish(ts[1])][2 := ts[2].(status := Processing, progress := 20)]),
                      content := PushingText))
  }

  /** Stage 3's rewrite of one message: tasks[2] finishes and the content is replaced. */
  function Stage3(m: Message): (r: Result<Message, Crash>)
    ensures r.Failure? <==> m.tasks.Some? && |m.tasks.value| < 3
    ensures r.Success? ==> r.value.content == FinishedText && r.value.role == m.role && r.value.stamp == m.stamp
    ensures r.Success? && m.tasks.Some? ==> r.value.tasks.Some? && var ts := r.value.tasks.value;
      && |ts| == |m.tasks.value| && ts[..2] == m.tasks.value[..2]
      && ts[2].status == Done && ts[2].progress == 100
    ensures r.Success? ==> r.value == m.(tasks := r.value.tasks, content := FinishedText)
    ensures r.Success? && m.tasks.None? ==> r.value.tasks.None?
    ensures r.Success? && m.tasks.Some? ==> r.value.tasks.Some? && var ts := r.value.tasks.value;
      && |ts| == |m.tasks.value| && ts[3..] == m.tasks.value[3..]
      && ts[2] == m.tasks.value[2].(status := Done, progress := 100)
  {
    match m.tasks
    case None => Success(m.(content := FinishedText))
    case Some(ts) =>
      if |ts| < 3 then Failure(MissingTask(2))
      else Success(m.(tasks := Some(ts[2 := Finish(ts[2])]), content := FinishedText))
  }

  /** Rewrites entry `at` of the log with `rewrite`, or fails as the rewrite does. */
  function RewriteAt(c: Chat, at: nat, rewrite: Message -> Result<Message, Crash>): (r: Result<Chat, Crash>)
    requires at < |c.log|
    ensures r.Failure? <==> rewrite(c.log[at]).Failure?
    ensures r.Success? ==> && |r.value.log| == |c.log| && r.value.typing == c.typing
                           && r.value.log[at] == rewrite(c.log[at]).value
                           && forall j :: 0 <= j < |c.log| && j != at ==> r.value.log[j] == c.log[j]
  {
    match rewrite(c.log[at])
    case Failure(e) => Failure(e)
    case Success(m) => Success(c.(log := c.log[at := m]))
  }

  /** Rewrites every entry carrying the stamp `flow` and keeps every other entry, or fails as
      one of the rewrites does: `prev.map(m => m.id === id ? update(m) : m)`. */
  function RewriteStamped(log: seq<Message>, flow: Stamp, rewrite: Message -> Result<Message, Crash>)
    : (r: Result<seq<Message>, Crash>)
    ensures r.Failure? <==> exists j :: 0 <= j < |log| && log[j].stamp == flow && rewrite(log[j]).Failure?
    ensures r.Failure? ==> exists j :: 0 <= j < |log| && log[j].stamp == flow && rewrite(log[j]) == Failure(r.error)
    ensures r.Success? ==> |r.value| == |log|
    ensures r.Success? ==> forall j :: 0 <= j < |log| && log[j].stamp != flow ==> r.value[j] == log[j]
    ensures r.Success? ==> forall j :: 0 <= j < |log| && log[j].stamp == flow ==>
      rewrite(log[j]).Success? && r.value[j] == rewrite(log[j]).value
    decreases |log|
  {
    if |log| == 0 then Success([])
    else
      var rest := RewriteStamped(log[1..], flow, rewrite);
      var head := if log[0].stamp == flow then rewrite(log[0]) else Success(log[0]);
      if head.Failure? then Failure(head.error)
      else if rest.Failure? then Failure(rest.error)
      else Success([head.value] + rest.value)
  }

  /** The confirm flow's second and third timers, as written: they rewrite whatever message is
      last when the timer fires. */
  function ConfirmStage2(c: Chat): (r: Result<Chat, Crash>)
    requires |c.log| > 0
    ensures r.Success? ==> |r.value.log| == |c.log| && r.value.log[..|c.log| - 1] == c.log[..|c.log| - 1]
    ensures r.Success? ==> r.value.log[|c.log| - 1].content == PushingText
    ensures r.Success? ==> Stage2(c.log[|c.log| - 1]).Success? && r.value.log[|c.log| - 1] == Stage2(c.log[|c.log| - 1]).value
    ensures r.Success? ==> r.value.typing == c.typing
    ensures r.Failure? <==> c.log[|c.log| - 1].tasks.Some? && |c.log[|c.log| - 1].tasks.value| < 3
  {
    var r := RewriteAt(c, |c.log| - 1, Stage2);
    if r.Success? then
      assert r.value.log[..|c.log| - 1] == c.log[..|c.log| - 1];
      r
    else r
  }

  function ConfirmStage3(c: Chat): (r: Result<Chat, Crash>)
    requires |c.log| > 0
    ensures r.Success? ==> |r.value.log| == |c.log| && r.value.log[..|c.log| - 1] == c.log[..|c.log| - 1]
    ensures r.Success? ==> r.value.log[|c.log| - 1].content == FinishedText
    ensures r.Success? ==> Stage3(c.log[|c.log| - 1]).Success? && r.value.log[|c.log| - 1] == Stage3(c.log[|c.log| - 1]).value
    ensures r.Success? ==> r.value.typing == c.typing
    ensures r.Failure? <==> c.log[|c.log| - 1].tasks.Some? && |c.log[|c.log| - 1].tasks.value| < 3
  {
    var r := RewriteAt(c, |c.log| - 1, Stage3);
    if r.Success? then
      assert r.value.log[..|c.log| - 1] == c.log[..|c.log| - 1];
      r
    else r
  }

  /** The second and third timers as intended: they rewrite the message stage 1 created,
      found by its stamp, and nothing else. */
  function ConfirmStage2Fixed(c: Chat, flow: Stamp): (r: Result<Chat, Crash>)
    ensures r.Success? ==> |r.value.log| == |c.log|
    ensures r.Success? ==> forall j :: 0 <= j < |c.log| && c.log[j].stamp != flow ==> r.value.log[j] == c.log[j]
    ensures r.Success? ==> forall j :: 0 <= j < |c.log| && c.log[j].stamp == flow ==>
      Stage2(c.log[j]).Success? && r.value.log[j] == Stage2(c.log[j]).value
    ensures r.Success? ==> r.value.typing == c.typing
    ensures r.Failure? <==>
      exists j :: 0 <= j < |c.log| && c.log[j].stamp == flow && c.log[j].tasks.Some? && |c.log[j].tasks.value| < 3
  {
    match RewriteStamped(c.log, flow, Stage2)
    case Failure(e) => Failure(e)
    case Success(log) => Success(c.(log := log))
  }

  function ConfirmStage3Fixed(c: Chat, flow: Stamp): (r: Result<Chat, Crash>)
    ensures r.Success? ==> |r.value.log| == |c.log|
    ensures r.Success? ==> forall j :: 0 <= j < |c.log| && c.log[j].stamp != flow ==> r.value.log[j] == c.log[j]
    ensures r.Success? ==> forall j :: 0 <= j < |c.log| && c.log[j].stamp == flow ==>
      Stage3(c.log[j]).Success? && r.value.log[j] == Stage3(c.log[j]).value
    ensures r.Success? ==> r.value.typing == c.typing
    ensures r.Failure? <==>
      exists j :: 0 <= j < |c.log| && c.log[j].stamp == flow && c.log[j].tasks.Some? && |c.log[j].tasks.value| < 3
  {
    match RewriteStamped(c.log, flow, Stage3)
    case Failure(e) => Failure(e)
    case Success(log) => Success(c.(log := log))
  }

  /** `handleAudienceReject`: ignored while a demo plays; otherwise the user's objection is
      appended and the typing indicator comes on. */
  function Reject(c: Chat, playing: bool, stamp: Stamp): (r: Chat)
    ensures playing ==> r == c
    ensures !playing ==> && |r.log| == |c.log| + 1 && r.log[..|c.log|] == c.log
                         && r.log[|c.log|] == Plain(stamp, User, RejectText) && r.typing
  {
    if playing then c else Chat(Store.Append(c.log, Plain(stamp, User, RejectText)), true)
  }

  /** The reject flow's timer: typing off and one plain question appended. */
  function RejectStage1(c: Chat, stamp: Stamp): (r: Chat)
    ensures !r.typing && |r.log| == |c.log| + 1 && r.log[..|c.log|] == c.log
    ensures r.log[|c.log|] == Plain(stamp, Assistant, AdjustText)
  {
    Chat(Store.Append(c.log, Plain(stamp, Assistant, AdjustText)), false)
  }

  /** The task lists the confirm flow shows, in order: after stage 1, 2 and 3. */
  const PushingTasks := [
    Task("t1", Prose, Done, 100), Task("t2", Prose, Done, 100), Task("t3", Prose, Processing, 20)]
  const FinishedTasks := [
    Task("t1", Prose, Done, 100), Task("t2", Prose, Done, 100), Task("t3", Prose, Done, 100)]

  /** Every list the confirm flow shows is sound, each stage only moves tasks forward,
      and the last stage leaves every task finished. */
  lemma ConfirmTasksProgress()
    ensures TasksSound(ConfirmTasks) && TasksSound(PushingTasks) && TasksSound(FinishedTasks)
    ensures Advances(ConfirmTasks, PushingTasks) && Advances(PushingTasks, FinishedTasks)
    ensures forall i :: 0 <= i < |FinishedTasks| ==> FinishedTasks[i].status == Done
    ensures Stage2(Plain(Stamp("", 0), Assistant, "").(tasks := Some(ConfirmTasks))).value.tasks == Some(PushingTasks)
    ensures Stage3(Plain(Stamp("", 0), Assistant, "").(tasks := Some(PushingTasks))).value.tasks == Some(FinishedTasks)
  {
    assert ConfirmTasks[1 := Finish(ConfirmTasks[1])][2 := ConfirmTasks[2].(status := Processing, progress := 20)]
        == PushingTasks;
    assert PushingTasks[2 := Finish(PushingTasks[2])] == FinishedTasks;
  }

  /** The follow-up only moves its list forward: on a sound list, finishing the first task
      lowers no progress and reopens nothing. */
  lemma FinishFirstAdvances(m: Message)
    requires MessageSound(m)
    ensures var r := FinishFirst(m);
      r.Success? && m.tasks.Some? ==> r.value.tasks.Some? && Advances(m.tasks.value, r.value.tasks.value)
  {
  }

  /** The stages move forward only from the flow's own lists: landing on a list whose third task
      is already finished, stage 2 sets it back to 20%. */
  lemma Stage2CanReopen()
    ensures var ts := [Task("a", "", Done, 100), Task("b", "", Done, 100), Task("c", "", Done, 100)];
      var r := Stage2(Plain(Stamp("", 0), Assistant, "").(tasks := Some(ts)));
      && TasksSound(ts) && r.Success? && r.value.tasks.Some? && !Advances(ts, r.value.tasks.value)
  {
    var ts := [Task("a", "", Done, 100), Task("b", "", Done, 100), Task("c", "", Done, 100)];
    var r := Stage2(Plain(Stamp("", 0), Assistant, "").(tasks := Some(ts)));
    assert r.value.tasks.value[2].progress == 20;
  }

  /** A rewrite that keeps sound messages sound. */
  ghost predicate KeepsSound(rewrite: Message -> Result<Message, Crash>) {
    forall m :: MessageSound(m) && rewrite(m).Success? ==> MessageSound(rewrite(m).value)
  }

  /** The three stage rewrites only ever finish a task or start one below 100%. */
  lemma StagesKeepSound()
    ensures KeepsSound(FinishFirst) && KeepsSound(Stage2) && KeepsSound(Stage3)
  {
    forall m: Message | MessageSound(m)
      ensures FinishFirst(m).Success? ==> MessageSound(FinishFirst(m).value)
      ensures Stage2(m).Success? ==> MessageSound(Stage2(m).value)
      ensures Stage3(m).Success? ==> MessageSound(Stage3(m).value)
    {
      if m.tasks.Some? {
        assert TasksSound(m.tasks.value);
      }
    }
  }

  lemma RewriteAtKeepsSound(c: Chat, at: nat, rewrite: Message -> Result<Message, Crash>)
    requires at < |c.log| && LogSound(c.log) && KeepsSound(rewrite)
    ensures RewriteAt(c, at, rewrite).Success? ==> LogSound(RewriteAt(c, at, rewrite).value.log)
  {
    if RewriteAt(c, at, rewrite).Success? {
      assert MessageSound(c.log[at]);
    }
  }

  lemma RewriteStampedKeepsSound(log: seq<Message>, flow: Stamp, rewrite: Message -> Result<Message, Crash>)
    requires LogSound(log) && KeepsSound(rewrite)
    ensures RewriteStamped(log, flow, rewrite).Success? ==> LogSound(RewriteStamped(log, flow, rewrite).value)
  {
    var r := RewriteStamped(log, flow, rewrite);
    if r.Success? {
      forall j | 0 <= j < |log| ensures MessageSound(r.value[j]) {
        assert MessageSound(log[j]);
      }
    }
  }

  /** The handlers that only append keep every task list in the conversation sound. */
  lemma AppendsKeepSound(c: Chat, playing: bool, content: string, stamp: Stamp)
    requires LogSound(c.log)
    ensures LogSound(Send(c, playing, content, stamp).log)
    ensures LogSound(Answer(c, content, stamp).log)
    ensures LogSound(Confirm(c, playing, stamp).log) && LogSound(ConfirmStage1(c, stamp).log)
    ensures LogSound(Reject(c, playing, stamp).log) && LogSound(RejectStage1(c, stamp).log)
  {
    assert TasksSound(PipelineTasks) && TasksSound(ConfirmTasks);
    Store.AppendKeepsSound(c.log, Answer(c, content, stamp).log[|c.log|]);
    assert Answer(c, content, stamp).log == c.log + [Answer(c, content, stamp).log[|c.log|]];
  }

  /** The timer stages, as written and as fixed, keep every task list sound when they succeed. */
  lemma StagesKeepLogSound(c: Chat, flow: Stamp, stamp: Stamp)
    requires LogSound(c.log)
    ensures |c.log| > 0 && PipelineFollowUp(c, stamp).Success? ==> LogSound(PipelineFollowUp(c, stamp).value.log)
    ensures |c.log| > 0 && ConfirmStage2(c).Success? ==> LogSound(ConfirmStage2(c).value.log)
    ensures |c.log| > 0 && ConfirmStage3(c).Success? ==> LogSound(ConfirmStage3(c).value.log)
    ensures PipelineFollowUpFixed(c, flow, stamp).Success? ==> LogSound(PipelineFollowUpFixed(c, flow, stamp).value.log)
    ensures ConfirmStage2Fixed(c, flow).Success? ==> LogSound(ConfirmStage2Fixed(c, flow).value.log)
    ensures ConfirmStage3Fixed(c, flow).Success? ==> LogSound(ConfirmStage3Fixed(c, flow).value.log)
  {
    if |c.log| > 0 {
      FollowUpKeepsLogSound(c, stamp);
      Stage2KeepsLogSound(c);
      Stage3KeepsLogSound(c);
    }
    FollowUpFixedKeepsLogSound(c, flow, stamp);
    Stage2FixedKeepsLogSound(c, flow);
    Stage3FixedKeepsLogSound(c, flow);
  }

  lemma FollowUpKeepsLogSound(c: Chat, stamp: Stamp)
    requires LogSound(c.log) && |c.log| > 0
    ensures PipelineFollowUp(c, stamp).Success? ==> LogSound(PipelineFollowUp(c, stamp).value.log)
  {
    StagesKeepSound();
    assert MessageSound(CircledReply(stamp));
    var n := |c.log| - 1;
    RewriteAtKeepsSound(c, n, FinishFirst);
    if RewriteAt(c, n, FinishFirst).Success? {
      Store.AppendKeepsSound(RewriteAt(c, n, FinishFirst).value.log, CircledReply(stamp));
    }
  }

  lemma Stage2KeepsLogSound(c: Chat)
    requires LogSound(c.log) && |c.log| > 0
    ensures ConfirmStage2(c).Success? ==> LogSound(ConfirmStage2(c).value.log)
  {
    StagesKeepSound();
    RewriteAtKeepsSound(c, |c.log| - 1, Stage2);
  }

  lemma Stage3KeepsLogSound(c: Chat)
    requires LogSound(c.log) && |c.log| > 0
    ensures ConfirmStage3(c).Success? ==> LogSound(ConfirmStage3(c).value.log)
  {
    StagesKeepSound();
    RewriteAtKeepsSound(c, |c.log| - 1, Stage3);
  }

  lemma FollowUpFixedKeepsLogSound(c: Chat, flow: Stamp, stamp: Stamp)
    requires LogSound(c.log)
    ensures PipelineFollowUpFixed(c, flow, stamp).Success? ==> LogSound(PipelineFollowUpFixed(c, flow, stamp).value.log)
  {
    StagesKeepSound();
    assert MessageSound(CircledReply(stamp));
    RewriteStampedKeepsSound(c.log, flow, FinishFirst);
    if RewriteStamped(c.log, flow, FinishFirst).Success? {
      Store.AppendKeepsSound(RewriteStamped(c.log, flow, FinishFirst).value, CircledReply(stamp));
    }
  }

  lemma Stage2FixedKeepsLogSound(c: Chat, flow: Stamp)
    requires LogSound(c.log)
    ensures ConfirmStage2Fixed(c, flow).Success? ==> LogSound(ConfirmStage2Fixed(c, flow).value.log)
  {
    StagesKeepSound();
    RewriteStampedKeepsSound(c.log, flow, Stage2);
  }

  lemma Stage3FixedKeepsLogSound(c: Chat, flow: Stamp)
    requires LogSound(c.log)
    ensures ConfirmStage3Fixed(c, flow).Success? ==> LogSound(ConfirmStage3Fixed(c, flow).value.log)
  {
    StagesKeepSound();
    RewriteStampedKeepsSound(c.log, flow, Stage3);
  }

  /** A chat in which the confirm flow's stage 1 has run and the operator then sent `text`
      before stage 2's timer fired. */
  function InterruptedConfirm(text: string): Chat {
    var c0 := Chat([Plain(Stamp("1", 0), Assistant, Prose)], false);
    var c1 := ConfirmStage1(Confirm(c0, false, Stamp("2", 1)), Stamp("3", 2));
    Send(c1, false, text, Stamp("4", 3))
  }

  /** As written, stage 2 rewrites the operator's own message: its content becomes the
      assistant's progress line, and the pipeline message it was meant for is left behind. */
  lemma Stage2OverwritesUserMessage()
    ensures var c := InterruptedConfirm("hello"); var r := ConfirmStage2(c);
      && r.Success? && r.value.log[3].role == User && r.value.log[3].content == PushingText
      && r.value.log[3].content != "hello"
      && r.value.log[2].tasks == Some(ConfirmTasks)
  {
    var c := InterruptedConfirm("hello");
    assert c.log[3] == Plain(Stamp("4", 3), User, "hello");
  }

  /** Rewriting by stamp, the same interruption leaves the operator's message alone and
      advances the pipeline message. */
  lemma Stage2FixedSparesUserMessage()
    ensures var c := InterruptedConfirm("hello"); var r := ConfirmStage2Fixed(c, Stamp("3", 2));
      && r.Success? && r.value.log[3] == c.log[3] && r.value.log[3].content == "hello"
      && r.value.log[2].tasks == Some(PushingTasks) && r.value.log[2].content == PushingText
  {
    var c := InterruptedConfirm("hello");
    ConfirmTasksProgress();
    assert c.log[2] == Plain(Stamp("3", 2), Assistant, GeneratingText).(tasks := Some(ConfirmTasks));
    assert c.log[3].stamp != Stamp("3", 2);
    assert c.log[0].stamp != Stamp("3", 2) && c.log[1].stamp != Stamp("3", 2);
  }

  /** A chat in which a selection request was answered with the pipeline and the operator then
      sent `text` before the follow-up's timer fired. */
  function InterruptedPipeline(text: string): Chat {
    var c0 := Chat([Plain(Stamp("1", 0), Assistant, Prose)], false);
    var c1 := Answer(Send(c0, false, "圈选", Stamp("2", 1)), "圈选", Stamp("3", 2));
    Send(c1, false, text, Stamp("4", 3))
  }

  /** As written, the follow-up finds the operator's message last, finishes nothing, and the
      pipeline's first task stays at 50% for good. */
  lemma FollowUpMissesPipeline()
    ensures var c := InterruptedPipeline("hello"); var r := PipelineFollowUp(c, Stamp("5", 4));
      && r.Success? && r.value.log[2].tasks == Some(PipelineTasks)
      && r.value.log[2].tasks.value[0].status == Processing && r.value.log[2].tasks.value[0].progress == 50
  {
    var c := InterruptedPipeline("hello");
    assert Contains("圈选", "圈选");
    assert c.log[3].tasks == None;
  }

  /** Rewriting by stamp, the follow-up finishes the pipeline's first task despite the interruption. */
  lemma FollowUpFixedFinishesPipeline()
    ensures var c := InterruptedPipeline("hello"); var r := PipelineFollowUpFixed(c, Stamp("3", 2), Stamp("5", 4));
      && r.Success? && r.value.log[3] == c.log[3]
      && r.value.log[2].tasks.Some? && r.value.log[2].tasks.value[0].status == Done
      && r.value.log[2].tasks.value[0].progress == 100
  {
    var c := InterruptedPipeline("hello");
    assert Contains("圈选", "圈选");
    assert c.log[2].tasks == Some(PipelineTasks) && c.log[2].stamp == Stamp("3", 2);
    assert c.log[3].stamp != Stamp("3", 2);
    assert c.log[0].stamp != Stamp("3", 2) && c.log[1].stamp != Stamp("3", 2);
  }

  /** When the message a stage is meant for is the last one and no other message shares its
      stamp, the fixed stages do exactly what the source does. */
  lemma FixedAgreesWhenLast(c: Chat, flow: Stamp, stamp: Stamp)
    requires |c.log| > 0 && c.log[|c.log| - 1].stamp == flow
    requires forall j :: 0 <= j < |c.log| - 1 ==> c.log[j].stamp != flow
    ensures ConfirmStage2Fixed(c, flow) == ConfirmStage2(c)
    ensures ConfirmStage3Fixed(c, flow) == ConfirmStage3(c)
    ensures PipelineFollowUpFixed(c, flow, stamp) == PipelineFollowUp(c, stamp)
  {
    Stage2AgreesWhenLast(c, flow);
    Stage3AgreesWhenLast(c, flow);
    FollowUpAgreesWhenLast(c, flow, stamp);
  }

  lemma Stage2AgreesWhenLast(c: Chat, flow: Stamp)
    requires |c.log| > 0 && c.log[|c.log| - 1].stamp == flow
    requires forall j :: 0 <= j < |c.log| - 1 ==> c.log[j].stamp != flow
    ensures ConfirmStage2Fixed(c, flow) == ConfirmStage2(c)
  {
    StampedIsLast(c, flow, Stage2);
    var r := RewriteStamped(c.log, flow, Stage2);
    var a := RewriteAt(c, |c.log| - 1, Stage2);
    assert ConfirmStage2(c) == a;
    if r.Success? {
      assert ConfirmStage2Fixed(c, flow) == Success(c.(log := r.value)) == a;
    } else {
      assert ConfirmStage2Fixed(c, flow) == Failure(r.error) == a;
    }
  }

  lemma Stage3AgreesWhenLast(c: Chat, flow: Stamp)
    requires |c.log| > 0 && c.log[|c.log| - 1].stamp == flow
    requires forall j :: 0 <= j < |c.log| - 1 ==> c.log[j].stamp != flow
    ensures ConfirmStage3Fixed(c, flow) == ConfirmStage3(c)
  {
    StampedIsLast(c, flow, Stage3);
    var r := RewriteStamped(c.log, flow, Stage3);
    var a := RewriteAt(c, |c.log| - 1, Stage3);
    assert ConfirmStage3(c) == a;
    if r.Success? {
      assert ConfirmStage3Fixed(c, flow) == Success(c.(log := r.value)) == a;
    } else {
      assert ConfirmStage3Fixed(c, flow) == Failure(r.error) == a;
    }
  }

  lemma FollowUpAgreesWhenLast(c: Chat, flow: Stamp, stamp: Stamp)
    requires |c.log| > 0 && c.log[|c.log| - 1].stamp == flow
    requires forall j :: 0 <= j < |c.log| - 1 ==> c.log[j].stamp != flow
    ensures PipelineFollowUpFixed(c, flow, stamp) == PipelineFollowUp(c, stamp)
  {
    StampedIsLast(c, flow, FinishFirst);
    var r := RewriteStamped(c.log, flow, FinishFirst);
    if r.Success? {
      assert PipelineFollowUpFixed(c, flow, stamp) == Success(c.(log := Store.Append(r.value, CircledReply(stamp))));
    } else {
      assert PipelineFollowUpFixed(c, flow, stamp) == Failure(r.error);
    }
  }

  /** Rewriting by a stamp only the last entry carries is rewriting the last entry. */
  lemma StampedIsLast(c: Chat, flow: Stamp, rewrite: Message -> Result<Message, Crash>)
    requires |c.log| > 0 && c.log[|c.log| - 1].stamp == flow
    requires forall j :: 0 <= j < |c.log| - 1 ==> c.log[j].stamp != flow
    ensures var r := RewriteStamped(c.log, flow, rewrite); var a := RewriteAt(c, |c.log| - 1, rewrite);
      && r.Failure? == a.Failure?
      && (r.Failure? ==> r.error == a.error)
      && (r.Success? ==> c.(log := r.value) == a.value)
  {
    var r := RewriteStamped(c.log, flow, rewrite);
    var a := RewriteAt(c, |c.log| - 1, rewrite);
    var n := |c.log| - 1;
    if r.Success? {
      assert r.value == c.log[n := rewrite(c.log[n]).value];
    }
  }

  /** `handleActionClick`: where a button takes the operator, and whether the drawer closes. */
  datatype Nav = Nav(close: bool, target: Option<string>)

  function ActionClick(action: string): (n: Nav)
    ensures n.close <==> n.target.Some?
    ensures n.target.Some? <==> action in {"goto_tasks", "goto_audience"}
  {
    if action == "goto_tasks" then Nav(true, Some("/tasks"))
    else if action == "goto_audience" then Nav(true, Some("/audience"))
    else Nav(false, None)
  }

  /** The two navigation buttons land on the page tab they name. */
  lemma ActionsLandOnTabs()
    ensures Tabs.ActiveTab(ActionClick("goto_tasks").target.value) == "tasks"
    ensures Tabs.ActiveTab(ActionClick("goto_audience").target.value) == "audience"
  {
    Tabs.PathsSelectTheirTabs();
  }
}

=== FILE: script.dfy ===
/** Scenario scripts as data, and the single interpreter that plays them: each step unfolds into
    primitive effects and waits, and the waits are `sleep`s driven by the operator's input. */
module Script {
  import opened Wrappers
  import opened Messages
  import Store
  import P = Playback

  /** One line of a scenario script (the helpers inside `runDemo`). */
  datatype Step =
    | Type(text: string)           // `type(text)`: fake the operator typing into the composer
    | UserMsg(text: string)        // `userMsg(text)`
    | AiMsg(reply: Reply)          // `aiMsg(msg)`
    | PatchLast(patch: Patch)      // `updateLastAiMsg(updater)`
    | ShowProfile(subject: string) // `setShowProfile(id)`
    | HideProfile                  // `setShowProfile(null)`
    | Sleep(ms: nat)               // a bare `sleep(ms)`

  /** One primitive of the interpreter: an instantaneous effect, or a wait. */
  datatype Instr =
    | SetComposer(text: string)
    | Reveal(ch: char)
    | PostUser(text: string)
    | PostReply(reply: Reply)
    | Rewrite(patch: Patch)
    | SetTyping(on: bool)
    | SetProfile(subject: Option<string>)
    | Delay(ms: nat)

  /** What the chat view shows: the log, the composer's text, the typing indicator and the profile overlay. */
  datatype Scene = Scene(log: seq<Message>, composer: string, typing: bool, profile: Option<string>)

  /** The effect of one primitive. Every message it creates carries `stamp`. */
  function Effect(s: Scene, i: Instr, stamp: Stamp): (r: Scene)
    requires |s.log| > 0
    ensures |r.log| > 0
  {
    match i
    case SetComposer(t) => s.(composer := t)
    case Reveal(ch) => s.(composer := s.composer + [ch])
    case PostUser(t) => s.(log := Store.Append(s.log, Plain(stamp, User, t)))
    case PostReply(rep) => s.(log := Store.Append(s.log, FromReply(stamp, rep)))
    case Rewrite(p) => s.(log := Store.PatchLast(s.log, m => ApplyPatch(m, p)))
    case SetTyping(on) => s.(typing := on)
    case SetProfile(o) => s.(profile := o)
    case Delay(_) => s
  }

  /** The scene after a run of primitives with no interruption; waits change nothing visible. */
  function ApplyAll(s: Scene, prog: seq<Instr>, stamp: Stamp): (r: Scene)
    requires |s.log| > 0
    ensures |r.log| > 0
    decreases |prog|
  {
    if |prog| == 0 then s else ApplyAll(Effect(s, prog[0], stamp), prog[1..], stamp)
  }

  lemma {:induction false} ApplyAllConcat(s: Scene, a: seq<Instr>, b: seq<Instr>, stamp: Stamp)
    requires |s.log| > 0
    ensures ApplyAll(s, a + b, stamp) == ApplyAll(ApplyAll(s, a, stamp), b, stamp)
    decreases |a|
  {
    if |a| == 0 {
      assert a + b == b;
    } else {
      assert (a + b)[0] == a[0];
      assert (a + b)[1..] == a[1..] + b;
      ApplyAllConcat(Effect(s, a[0], stamp), a[1..], b, stamp);
    }
  }

  lemma ApplyOne(s: Scene, i: Instr, stamp: Stamp)
    requires |s.log| > 0
    ensures ApplyAll(s, [i], stamp) == Effect(s, i, stamp)
  {
    assert [i][1..] == [];
  }

  lemma ApplyAllSnoc(s: Scene, a: seq<Instr>, i: Instr, stamp: Stamp)
    requires |s.log| > 0
    ensures ApplyAll(s, a + [i], stamp) == Effect(ApplyAll(s, a, stamp), i, stamp)
  {
    ApplyAllConcat(s, a, [i], stamp);
  }

  /** `for (i...) { setInputValue(prev => prev + text[i]); await sleep(30); }` */
  function Reveals(text: string): (prog: seq<Instr>)
    ensures |prog| == 2 * |text|
  {
    if |text| == 0 then [] else [Reveal(text[0]), Delay(30)] + Reveals(text[1..])
  }

  /** The primitives a step unfolds into, in the order the source performs them. */
  function Expand(step: Step): seq<Instr> {
    match step
    case Type(t) => [SetComposer("")] + Reveals(t) + [Delay(400), SetComposer("")]
    case UserMsg(t) => [PostUser(t), Delay(600)]
    case AiMsg(rep) => [SetTyping(true), Delay(800), SetTyping(false), PostReply(rep), Delay(800)]
    case PatchLast(p) => [Rewrite(p), Delay(800)]
    case ShowProfile(id) => [SetProfile(Some(id))]
    case HideProfile => [SetProfile(None)]
    case Sleep(ms) => [Delay(ms)]
  }

  function Compile(steps: seq<Step>): seq<Instr>
    decreases |steps|
  {
    if |steps| == 0 then [] else Expand(steps[0]) + Compile(steps[1..])
  }

  datatype Status =
    | Completed   // the script ran to its end
    | Aborted     // a `sleep` threw STOPPED
    | Suspended   // the run is inside a wait when the operator's input ends

  /** Where a run got to: its status, the scene, the flags, the primitives not yet finished,
      the operator input not yet consumed, and the clock of the wait in progress. */
  datatype Outcome = Outcome(
    status: Status, scene: Scene, control: P.Control, rest: seq<Instr>, pending: seq<P.Op>, elapsed: nat)

  /** Finishing the first primitive and then a prefix of the others is a prefix of the whole. */
  lemma PrefixCons(s: Scene, prog: seq<Instr>, n: nat, stamp: Stamp)
    requires |s.log| > 0 && 0 < n <= |prog|
    ensures ApplyAll(s, prog[..n], stamp) == ApplyAll(Effect(s, prog[0], stamp), prog[1..][..n - 1], stamp)
  {
    assert prog[..n][0] == prog[0];
    assert prog[..n][1..] == prog[1..][..n - 1];
  }

  /** The interpreter. Instantaneous effects run back to back; each wait is a `sleep` that
      consumes one operator action per tick. The scene at any stopping point is exactly the
      scene after the primitives finished so far: nothing is rolled back and nothing runs ahead. */
  function Exec(s: Scene, c: P.Control, prog: seq<Instr>, env: seq<P.Op>, stamp: Stamp): (o: Outcome)
    requires |s.log| > 0
    ensures |o.rest| <= |prog| && o.rest == prog[|prog| - |o.rest|..]
    ensures |o.pending| <= |env| && o.pending == env[|env| - |o.pending|..]
    ensures o.status == Completed <==> o.rest == []
    ensures o.status != Completed ==> o.rest[0].Delay?
    ensures o.status == Aborted ==> !o.control.isPlaying
    ensures o.status == Suspended ==> o.pending == [] && o.control.isPlaying
    ensures o.control.isPlaying ==> c.isPlaying && o.control.scenario == c.scenario
    decreases |env|, |prog|
  {
    if |prog| == 0 then Outcome(Completed, s, c, [], env, 0)
    else if prog[0].Delay? then
      var r := P.Sleep(prog[0].ms, 0, c, env);
      if r.status == P.Halted then Outcome(Aborted, s, r.control, prog, r.rest, r.elapsed)
      else if r.status == P.Waiting then Outcome(Suspended, s, r.control, prog, [], r.elapsed)
      else
        Exec(s, r.control, prog[1..], r.rest, stamp)
    else
      Exec(Effect(s, prog[0], stamp), c, prog[1..], env, stamp)
  }

  /** How many clock-advancing ticks the waits of `prog` take: ⌈ms/100⌉ for each. */
  function Duration(prog: seq<Instr>): nat
    decreases |prog|
  {
    if |prog| == 0 then 0
    else (if prog[0].Delay? then P.Ticks(prog[0].ms) else 0) + Duration(prog[1..])
  }

  /** One finished wait: the run goes on from after it with the flags and input the wait left. */
  lemma ExecDelay(s: Scene, c: P.Control, prog: seq<Instr>, env: seq<P.Op>, stamp: Stamp)
    requires |s.log| > 0 && |prog| > 0 && prog[0].Delay?
    requires P.Sleep(prog[0].ms, 0, c, env).status == P.Slept
    ensures var r := P.Sleep(prog[0].ms, 0, c, env);
      Exec(s, c, prog, env, stamp) == Exec(s, r.control, prog[1..], r.rest, stamp)
  {
  }

  /** One instantaneous effect: the run goes on from the scene it produced. */
  lemma ExecEffect(s: Scene, c: P.Control, prog: seq<Instr>, env: seq<P.Op>, stamp: Stamp)
    requires |s.log| > 0 && |prog| > 0 && !prog[0].Delay?
    ensures Exec(s, c, prog, env, stamp) == Exec(Effect(s, prog[0], stamp), c, prog[1..], env, stamp)
  {
  }

  /** A wait changes nothing visible. */
  lemma ApplyAllDelay(s: Scene, prog: seq<Instr>, stamp: Stamp)
    requires |s.log| > 0 && |prog| > 0 && prog[0].Delay?
    ensures ApplyAll(s, prog, stamp) == ApplyAll(s, prog[1..], stamp)
  {
    assert Effect(s, prog[0], stamp) == s;
  }

  /** Left alone long enough, a run plays every primitive: it completes with the flags it started
      with, the scene after the whole program, and exactly its duration's worth of input consumed. */
  lemma {:induction false} QuietExec(s: Scene, c: P.Control, prog: seq<Instr>, env: seq<P.Op>, stamp: Stamp)
    requires |s.log| > 0 && c.isPlaying && !c.isPaused
    requires P.Quiet(env) && |env| >= Duration(prog)
    ensures var o := Exec(s, c, prog, env, stamp);
      && o.status == Completed && o.control == c
      && o.scene == ApplyAll(s, prog, stamp) && o.pending == env[Duration(prog)..]
    decreases |prog|
  {
    if |prog| == 0 {
      assert QuietResult(s, c, prog, env, stamp);
    } else if prog[0].Delay? {
      var ms := prog[0].ms;
      P.QuietSleep(ms, 0, c, env);
      var r := P.Sleep(ms, 0, c, env);
      assert P.Quiet(r.rest) by {
        assert forall k :: 0 <= k < |r.rest| ==> r.rest[k] == env[r.ticks + k];
      }
      QuietExec(s, c, prog[1..], r.rest, stamp);
      QuietDelay(s, c, prog, env, stamp);
    } else {
      QuietExec(Effect(s, prog[0], stamp), c, prog[1..], env, stamp);
      QuietEffect(s, c, prog, env, stamp);
    }
  }

  predicate QuietResult(s: Scene, c: P.Control, prog: seq<Instr>, env: seq<P.Op>, stamp: Stamp)
    requires |s.log| > 0 && |env| >= Duration(prog)
  {
    var o := Exec(s, c, prog, env, stamp);
    && o.status == Completed && o.control == c
    && o.scene == ApplyAll(s, prog, stamp) && o.pending == env[Duration(prog)..]
  }

  lemma QuietDelay(s: Scene, c: P.Control, prog: seq<Instr>, env: seq<P.Op>, stamp: Stamp)
    requires |s.log| > 0 && |prog| > 0 && prog[0].Delay? && |env| >= Duration(prog)
    requires var r := P.Sleep(prog[0].ms, 0, c, env);
      && r.status == P.Slept && r.control == c && r.ticks == P.Ticks(prog[0].ms)
      && QuietResult(s, c, prog[1..], r.rest, stamp)
    ensures QuietResult(s, c, prog, env, stamp)
  {
    var r := P.Sleep(prog[0].ms, 0, c, env);
    assert Duration(prog) == P.Ticks(prog[0].ms) + Duration(prog[1..]);
    ExecDelay(s, c, prog, env, stamp);
    ApplyAllDelay(s, prog, stamp);
    assert r.rest[Duration(prog[1..])..] == env[Duration(prog)..];
  }

  lemma QuietEffect(s: Scene, c: P.Control, prog: seq<Instr>, env: seq<P.Op>, stamp: Stamp)
    requires |s.log| > 0 && |prog| > 0 && !prog[0].Delay? && |env| >= Duration(prog)
    requires QuietResult(Effect(s, prog[0], stamp), c, prog[1..], env, stamp)
    ensures QuietResult(s, c, prog, env, stamp)
  {
    assert Duration(prog) == Duration(prog[1..]);
    ExecEffect(s, c, prog, env, stamp);
  }

  /** Wherever a run stops, the scene is exactly the scene after the primitives it finished:
      nothing is rolled back and nothing runs ahead. */
  lemma {:induction false} ExecScene(s: Scene, c: P.Control, prog: seq<Instr>, env: seq<P.Op>, stamp: Stamp)
    requires |s.log| > 0
    ensures SceneMatches(s, c, prog, env, stamp)
    decreases |env|, |prog|
  {
    if |prog| == 0 {
      assert prog[..0] == [];
    } else if prog[0].Delay? {
      var r := P.Sleep(prog[0].ms, 0, c, env);
      if r.status == P.Slept {
        ExecScene(s, r.control, prog[1..], r.rest, stamp);
        DelayStep(s, c, prog, env, stamp);
      } else {
        assert prog[..0] == [];
      }
    } else {
      ExecScene(Effect(s, prog[0], stamp), c, prog[1..], env, stamp);
      EffectStep(s, c, prog, env, stamp);
    }
  }

  predicate SceneMatches(s: Scene, c: P.Control, prog: seq<Instr>, env: seq<P.Op>, stamp: Stamp)
    requires |s.log| > 0
  {
    var o := Exec(s, c, prog, env, stamp);
    o.scene == ApplyAll(s, prog[..|prog| - |o.rest|], stamp)
  }

  lemma DelayStep(s: Scene, c: P.Control, prog: seq<Instr>, env: seq<P.Op>, stamp: Stamp)
    requires |s.log| > 0 && |prog| > 0 && prog[0].Delay?
    requires P.Sleep(prog[0].ms, 0, c, env).status == P.Slept
    requires var r := P.Sleep(prog[0].ms, 0, c, env); SceneMatches(s, r.control, prog[1..], r.rest, stamp)
    ensures SceneMatches(s, c, prog, env, stamp)
  {
    var r := P.Sleep(prog[0].ms, 0, c, env);
    ExecDelay(s, c, prog, env, stamp);
    var o := Exec(s, r.control, prog[1..], r.rest, stamp);
    DelayPrefix(s, prog, |prog| - |o.rest|, stamp);
  }

  /** A prefix that starts with a wait shows what the prefix after the wait shows. */
  lemma DelayPrefix(s: Scene, prog: seq<Instr>, n: nat, stamp: Stamp)
    requires |s.log| > 0 && 0 < n <= |prog| && prog[0].Delay?
    ensures ApplyAll(s, prog[..n], stamp) == ApplyAll(s, prog[1..][..n - 1], stamp)
  {
    PrefixCons(s, prog, n, stamp);
    assert Effect(s, prog[0], stamp) == s;
  }

  lemma EffectStep(s: Scene, c: P.Control, prog: seq<Instr>, env: seq<P.Op>, stamp: Stamp)
    requires |s.log| > 0 && |prog| > 0 && !prog[0].Delay?
    requires SceneMatches(Effect(s, prog[0], stamp), c, prog[1..], env, stamp)
    ensures SceneMatches(s, c, prog, env, stamp)
  {
    var o := Exec(Effect(s, prog[0], stamp), c, prog[1..], env, stamp);
    assert Exec(s, c, prog, env, stamp) == o;
    PrefixCons(s, prog, |prog| - |o.rest|, stamp);
  }

  /** After a stop, a run consumes no more operator input: it throws at the next wait, or the
      script has only instantaneous effects left and completes. */
  lemma {:induction false} StoppedRunHalts(s: Scene, c: P.Control, prog: seq<Instr>, env: seq<P.Op>, stamp: Stamp)
    requires |s.log| > 0 && !c.isPlaying
    ensures var o := Exec(s, c, prog, env, stamp);
      o.status != Suspended && o.pending == env && !o.control.isPlaying
    decreases |prog|
  {
    if |prog| > 0 {
      if prog[0].Delay? {
        if prog[0].ms > 0 {
          P.StoppedSleepHalts(prog[0].ms, 0, c, env);
        } else {
          StoppedRunHalts(s, c, prog[1..], env, stamp);
        }
      } else {
        StoppedRunHalts(Effect(s, prog[0], stamp), c, prog[1..], env, stamp);
      }
    }
  }

  /** A stop pressed during the k-th tick is honoured within one tick: the run ends
      (finished or aborted) having consumed at most k + 1 operator actions. */
  lemma {:induction false} StopEndsRun(s: Scene, c: P.Control, prog: seq<Instr>, env: seq<P.Op>, stamp: Stamp, k: nat)
    requires |s.log| > 0 && k < |env| && env[k] == P.StopOp
    ensures var o := Exec(s, c, prog, env, stamp);
      o.status != Suspended && |env| - |o.pending| <= k + 1
    decreases |env|, |prog|
  {
    if |prog| == 0 {
      assert StopResult(s, c, prog, env, stamp, k);
    } else if prog[0].Delay? {
      var ms := prog[0].ms;
      var r := P.Sleep(ms, 0, c, env);
      P.StopSeenWithinOneTick(ms, 0, c, env, k);
      if r.status != P.Slept {
        StopHalted(s, c, prog, env, stamp, k);
      } else if r.ticks == k + 1 {
        StoppedRunHalts(s, r.control, prog[1..], r.rest, stamp);
        StopDelaySettled(s, c, prog, env, stamp, k);
      } else {
        assert r.rest[k - r.ticks] == env[k];
        StopEndsRun(s, r.control, prog[1..], r.rest, stamp, k - r.ticks);
        StopDelayLater(s, c, prog, env, stamp, k);
      }
    } else {
      StopEndsRun(Effect(s, prog[0], stamp), c, prog[1..], env, stamp, k);
      StopEffect(s, c, prog, env, stamp, k);
    }
  }

  /** The run has ended having consumed at most k + 1 operator actions. */
  predicate StopResult(s: Scene, c: P.Control, prog: seq<Instr>, env: seq<P.Op>, stamp: Stamp, k: nat)
    requires |s.log| > 0
  {
    var o := Exec(s, c, prog, env, stamp);
    o.status != Suspended && |env| - |o.pending| <= k + 1
  }

  /** A wait that throws ends the run where it threw. */
  lemma StopHalted(s: Scene, c: P.Control, prog: seq<Instr>, env: seq<P.Op>, stamp: Stamp, k: nat)
    requires |s.log| > 0 && |prog| > 0 && prog[0].Delay?
    requires var r := P.Sleep(prog[0].ms, 0, c, env); r.status == P.Halted && r.ticks <= k + 1
    ensures StopResult(s, c, prog, env, stamp, k)
  {
  }

  /** A wait that finished on the stop's own tick hands a stopped run the rest of the input. */
  lemma StopDelaySettled(s: Scene, c: P.Control, prog: seq<Instr>, env: seq<P.Op>, stamp: Stamp, k: nat)
    requires |s.log| > 0 && |prog| > 0 && prog[0].Delay?
    requires var r := P.Sleep(prog[0].ms, 0, c, env);
      && r.status == P.Slept && r.ticks == k + 1
      && var o := Exec(s, r.control, prog[1..], r.rest, stamp); o.status != Suspended && o.pending == r.rest
    ensures StopResult(s, c, prog, env, stamp, k)
  {
    ExecDelay(s, c, prog, env, stamp);
  }

  /** A wait that finished before the stop's tick leaves the stop k - ticks actions ahead. */
  lemma StopDelayLater(s: Scene, c: P.Control, prog: seq<Instr>, env: seq<P.Op>, stamp: Stamp, k: nat)
    requires |s.log| > 0 && |prog| > 0 && prog[0].Delay?
    requires var r := P.Sleep(prog[0].ms, 0, c, env);
      && r.status == P.Slept && r.ticks <= k
      && StopResult(s, r.control, prog[1..], r.rest, stamp, k - r.ticks)
    ensures StopResult(s, c, prog, env, stamp, k)
  {
    ExecDelay(s, c, prog, env, stamp);
  }

  lemma StopEffect(s: Scene, c: P.Control, prog: seq<Instr>, env: seq<P.Op>, stamp: Stamp, k: nat)
    requires |s.log| > 0 && |prog| > 0 && !prog[0].Delay?
    requires StopResult(Effect(s, prog[0], stamp), c, prog[1..], env, stamp, k)
    ensures StopResult(s, c, prog, env, stamp, k)
  {
    ExecEffect(s, c, prog, env, stamp);
  }

  /** `userMsg` appends one user message at the tail and changes nothing else. */
  lemma UserMsgAppends(s: Scene, text: string, stamp: Stamp)
    requires |s.log| > 0
    ensures var r := ApplyAll(s, Expand(UserMsg(text)), stamp);
      && |r.log| == |s.log| + 1 && r.log[..|s.log|] == s.log
      && r.log[|s.log|] == Plain(stamp, User, text)
      && r.composer == s.composer && r.typing == s.typing && r.profile == s.profile
  {
    var r1 := Effect(s, PostUser(text), stamp);
    assert ApplyAll(s, Expand(UserMsg(text)), stamp) == ApplyAll(r1, [Delay(600)], stamp);
  }

  /** `aiMsg` appends one assistant message carrying the reply, and leaves the typing indicator off. */
  lemma AiMsgAppends(s: Scene, reply: Reply, stamp: Stamp)
    requires |s.log| > 0
    ensures var r := ApplyAll(s, Expand(AiMsg(reply)), stamp);
      && |r.log| == |s.log| + 1 && r.log[..|s.log|] == s.log
      && r.log[|s.log|] == FromReply(stamp, reply) && r.log[|s.log|].role == Assistant
      && !r.typing && r.composer == s.composer && r.profile == s.profile
  {
    var prog := Expand(AiMsg(reply));
    var s4 := s.(typing := false, log := Store.Append(s.log, FromReply(stamp, reply)));
    assert prog[4..] == [Delay(800)];
    assert ApplyAll(s4, prog[4..], stamp) == ApplyAll(s4, [], stamp) == s4;
    assert ApplyAll(s.(typing := false), prog[3..], stamp) == s4;
    assert ApplyAll(s.(typing := true), prog[2..], stamp) == s4;
    assert ApplyAll(s.(typing := true), prog[1..], stamp) == s4;
  }

  /** `updateLastAiMsg` keeps the log's length and every entry but the last, and rewrites the last one. */
  lemma PatchLastRewrites(s: Scene, p: Patch, stamp: Stamp)
    requires |s.log| > 0
    ensures var r := ApplyAll(s, Expand(PatchLast(p)), stamp); var n := |s.log|;
      && |r.log| == n && r.log[..n - 1] == s.log[..n - 1]
      && r.log[n - 1] == ApplyPatch(s.log[n - 1], p)
  {
    var r1 := Effect(s, Rewrite(p), stamp);
    assert ApplyAll(s, Expand(PatchLast(p)), stamp) == ApplyAll(r1, [Delay(800)], stamp);
  }

  /** Revealing the first `i` characters is the opening of revealing them all. */
  lemma {:induction false} RevealsTake(text: string, i: nat)
    requires i <= |text|
    ensures Reveals(text)[..2 * i] == Reveals(text[..i])
    decreases i
  {
    if i == 0 {
      assert text[..0] == [];
    } else {
      var t := text[..i];
      var rest := Reveals(text[1..]);
      RevealsTake(text[1..], i - 1);
      assert t[0] == text[0] && t[1..] == text[1..][..i - 1];
      assert Reveals(t) == [Reveal(text[0]), Delay(30)] + rest[..2 * (i - 1)];
      assert Reveals(text) == [Reveal(text[0]), Delay(30)] + rest;
    }
  }

  /** The character revealed at position `2 i`. */
  lemma {:induction false} RevealsAt(text: string, i: nat)
    requires i < |text|
    ensures Reveals(text)[2 * i] == Reveal(text[i])
    decreases i
  {
    if i > 0 {
      RevealsAt(text[1..], i - 1);
    }
  }

  /** Revealing `text` with nobody interrupting appends it to the composer and leaves the log alone. */
  lemma {:induction false} RevealsAll(s: Scene, text: string, stamp: Stamp)
    requires |s.log| > 0
    ensures ApplyAll(s, Reveals(text), stamp).composer == s.composer + text
    ensures ApplyAll(s, Reveals(text), stamp).log == s.log
    decreases |text|
  {
    if |text| > 0 {
      var s1 := s.(composer := s.composer + [text[0]]);
      var pair := [Reveal(text[0]), Delay(30)];
      ApplyAllConcat(s, pair, Reveals(text[1..]), stamp);
      assert pair[1..] == [Delay(30)];
      ApplyOne(s1, Delay(30), stamp);
      assert ApplyAll(s, pair, stamp) == s1;
      RevealsAll(s1, text[1..], stamp);
      assert s1.composer + text[1..] == s.composer + text;
    }
  }

  /** After the first `m` primitives of revealing `text`, the composer has grown by the first
      ⌈m/2⌉ characters: each character appears before its wait, never after. */
  lemma RevealsPrefix(s: Scene, text: string, m: nat, stamp: Stamp)
    requires |s.log| > 0 && m <= 2 * |text|
    ensures ApplyAll(s, Reveals(text)[..m], stamp).composer == s.composer + text[..(m + 1) / 2]
    ensures ApplyAll(s, Reveals(text)[..m], stamp).log == s.log
  {
    var R := Reveals(text);
    var i := m / 2;
    RevealsTake(text, i);
    RevealsAll(s, text[..i], stamp);
    if m % 2 == 1 {
      RevealsAt(text, i);
      assert R[..m] == R[..2 * i] + [Reveal(text[i])];
      ApplyAllSnoc(s, R[..2 * i], Reveal(text[i]), stamp);
      assert text[..i + 1] == text[..i] + [text[i]];
    }
  }

  /** `type(text)`: from its first primitive on, wherever the step stops the composer holds a
      prefix of `text`, and the log is untouched. */
  lemma TypeShowsPrefix(s: Scene, text: string, k: nat, stamp: Stamp)
    requires |s.log| > 0 && 1 <= k <= |Expand(Type(text))|
    ensures var r := ApplyAll(s, Expand(Type(text))[..k], stamp);
      r.composer <= text && r.log == s.log
  {
    var prog := Expand(Type(text));
    var n := |text|;
    var R := Reveals(text);
    var cleared := s.(composer := "");
    assert prog == [SetComposer("")] + R + [Delay(400), SetComposer("")];
    ApplyOne(s, SetComposer(""), stamp);
    if k <= 2 * n + 1 {
      assert prog[..k] == [SetComposer("")] + R[..k - 1];
      ApplyAllConcat(s, [SetComposer("")], R[..k - 1], stamp);
      RevealsPrefix(cleared, text, k - 1, stamp);
    } else {
      TypedText(s, text, stamp);
      if k == 2 * n + 3 {
        assert prog[..k] == prog;
        TypeClears(s, text, stamp);
      }
    }
  }

  /** Just before its final clear, `type(text)` shows all of `text`. */
  lemma TypedText(s: Scene, text: string, stamp: Stamp)
    requires |s.log| > 0
    ensures var r := ApplyAll(s, Expand(Type(text))[..2 * |text| + 2], stamp);
      r.composer == text && r.log == s.log
  {
    var prog := Expand(Type(text));
    var R := Reveals(text);
    var cleared := s.(composer := "");
    var full := [SetComposer("")] + R;
    assert prog == full + [Delay(400), SetComposer("")];
    assert prog[..2 * |text| + 2] == full + [Delay(400)];
    ApplyOne(s, SetComposer(""), stamp);
    ApplyAllConcat(s, [SetComposer("")], R, stamp);
    RevealsAll(cleared, text, stamp);
    ApplyAllSnoc(s, full, Delay(400), stamp);
  }

  /** A finished `type(text)` leaves the composer empty and the log as it was. */
  lemma TypeClears(s: Scene, text: string, stamp: Stamp)
    requires |s.log| > 0
    ensures var r := ApplyAll(s, Expand(Type(text)), stamp);
      r.composer == "" && r.log == s.log
  {
    var prog := Expand(Type(text));
    var head := prog[..2 * |text| + 2];
    assert prog == head + [SetComposer("")];
    TypedText(s, text, stamp);
    ApplyAllSnoc(s, head, SetComposer(""), stamp);
  }

  /** `type(text)`: once `i` characters are revealed the composer shows exactly the first `i`. */
  lemma TypeRevealsInOrder(s: Scene, text: string, i: nat, stamp: Stamp)
    requires |s.log| > 0 && i <= |text|
    ensures ApplyAll(s, Expand(Type(text))[..2 * i + 1], stamp).composer == text[..i]
  {
    var prog := Expand(Type(text));
    var R := Reveals(text);
    assert prog == [SetComposer("")] + R + [Delay(400), SetComposer("")];
    assert prog[..2 * i + 1] == [prog[0]] + R[..2 * i];
    ApplyAllConcat(s, [prog[0]], R[..2 * i], stamp);
    RevealsPrefix(s.(composer := ""), text, 2 * i, stamp);
  }

  /** The step-level reading of a script's effect on the log, regardless of pacing: a posted
      message is appended, a rewrite replaces the last entry, and every other step leaves the
      log alone. */
  function StepLog(log: seq<Message>, step: Step, stamp: Stamp): (r: seq<Message>)
    requires |log| > 0
    ensures |r| == |log| + (if step.UserMsg? || step.AiMsg? then 1 else 0)
  {
    match step
    case UserMsg(t) => Store.Append(log, Plain(stamp, User, t))
    case AiMsg(rep) => Store.Append(log, FromReply(stamp, rep))
    case PatchLast(p) => Store.PatchLast(log, m => ApplyPatch(m, p))
    case _ => log
  }

  function Transcript(log: seq<Message>, steps: seq<Step>, stamp: Stamp): seq<Message>
    requires |log| > 0
    decreases |steps|
  {
    if |steps| == 0 then log else Transcript(StepLog(log, steps[0], stamp), steps[1..], stamp)
  }

  /** How many messages a script posts: one per `userMsg` and one per `aiMsg`. */
  function Posts(steps: seq<Step>): nat
    decreases |steps|
  {
    if |steps| == 0 then 0 else (if steps[0].UserMsg? || steps[0].AiMsg? then 1 else 0) + Posts(steps[1..])
  }

  lemma {:induction false} PostsConcat(a: seq<Step>, b: seq<Step>)
    ensures Posts(a + b) == Posts(a) + Posts(b)
    decreases |a|
  {
    if |a| == 0 {
      assert a + b == b;
    } else {
      assert (a + b)[1..] == a[1..] + b;
      PostsConcat(a[1..], b);
    }
  }

  /** A script with a message step anywhere in it posts something. */
  lemma {:induction false} PostsAt(steps: seq<Step>, i: nat)
    requires i < |steps| && (steps[i].UserMsg? || steps[i].AiMsg?)
    ensures Posts(steps) >= 1
    decreases i
  {
    if i > 0 {
      PostsAt(steps[1..], i - 1);
    }
  }

  /** The log only grows: by exactly one entry per posted message, since a rewrite of the
      last entry keeps the length. */
  lemma {:induction false} TranscriptLength(log: seq<Message>, steps: seq<Step>, stamp: Stamp)
    requires |log| > 0
    ensures |Transcript(log, steps, stamp)| == |log| + Posts(steps)
    decreases |steps|
  {
    if |steps| > 0 {
      TranscriptLength(StepLog(log, steps[0], stamp), steps[1..], stamp);
    }
  }

  /** The task list the last entry shows after a step: a user message shows none, a reply
      its own, a rewrite its update of the current one, and every other step keeps it. */
  function NextTasks(last: Option<seq<Task>>, step: Step): Option<seq<Task>> {
    match step
    case UserMsg(_) => None
    case AiMsg(rep) => rep.tasks
    case PatchLast(p) => p.tasks.Over(last)
    case _ => last
  }

  function TasksAfter(last: Option<seq<Task>>, steps: seq<Step>): Option<seq<Task>>
    decreases |steps|
  {
    if |steps| == 0 then last else TasksAfter(NextTasks(last, steps[0]), steps[1..])
  }

  /** A rewrite that installs a task list needs one to advance: the last entry already shows
      a list, and every task of the new one is at least as far along. */
  predicate AdvancesOn(last: Option<seq<Task>>, step: Step) {
    step.PatchLast? && step.patch.tasks.Set? ==> last.Some? && Advances(last.value, step.patch.tasks.value)
  }

  /** Every rewrite of a script advances the list it replaces, when the last entry starts
      out showing `last`. */
  predicate Advancing(last: Option<seq<Task>>, steps: seq<Step>)
    decreases |steps|
  {
    |steps| == 0 || (AdvancesOn(last, steps[0]) && Advancing(NextTasks(last, steps[0]), steps[1..]))
  }

  /** The same rule read on the log itself: each task-setting rewrite, at the moment it is
      applied, advances the list of the entry it rewrites. */
  predicate RewritesAdvance(log: seq<Message>, steps: seq<Step>, stamp: Stamp)
    requires |log| > 0
    decreases |steps|
  {
    |steps| == 0 ||
    (AdvancesOn(log[|log| - 1].tasks, steps[0]) && RewritesAdvance(StepLog(log, steps[0], stamp), steps[1..], stamp))
  }

  /** `NextTasks` tracks the last entry of the step-level log. */
  lemma NextTasksIsLast(log: seq<Message>, step: Step, stamp: Stamp)
    requires |log| > 0
    ensures var r := StepLog(log, step, stamp); r[|r| - 1].tasks == NextTasks(log[|log| - 1].tasks, step)
  {
  }

  lemma {:induction false} AdvancingConcat(last: Option<seq<Task>>, a: seq<Step>, b: seq<Step>)
    requires Advancing(last, a) && Advancing(TasksAfter(last, a), b)
    ensures Advancing(last, a + b) && TasksAfter(last, a + b) == TasksAfter(TasksAfter(last, a), b)
    decreases |a|
  {
    if |a| == 0 {
      assert a + b == b;
    } else {
      assert (a + b)[0] == a[0];
      assert (a + b)[1..] == a[1..] + b;
      AdvancingConcat(NextTasks(last, a[0]), a[1..], b);
    }
  }

  /** One step of a check from the back of a script: the suffix from `k` advances if its
      first step does and the rest does. */
  lemma AdvancingFrom(last: Option<seq<Task>>, steps: seq<Step>, k: nat, after: Option<seq<Task>>)
    requires k < |steps| && AdvancesOn(last, steps[k])
    requires Advancing(NextTasks(last, steps[k]), steps[k + 1..]) && TasksAfter(NextTasks(last, steps[k]), steps[k + 1..]) == after
    ensures Advancing(last, steps[k..]) && TasksAfter(last, steps[k..]) == after
  {
    assert steps[k..][0] == steps[k];
    assert steps[k..][1..] == steps[k + 1..];
  }

  /** Checking a script against the tracked list is enough: it then advances on any log whose
      last entry shows that list. */
  lemma {:induction false} AdvancingRewrites(log: seq<Message>, steps: seq<Step>, stamp: Stamp)
    requires |log| > 0 && Advancing(log[|log| - 1].tasks, steps)
    ensures RewritesAdvance(log, steps, stamp)
    decreases |steps|
  {
    if |steps| > 0 {
      NextTasksIsLast(log, steps[0], stamp);
      AdvancingRewrites(StepLog(log, steps[0], stamp), steps[1..], stamp);
    }
  }

  lemma ExpandLog(s: Scene, step: Step, stamp: Stamp)
    requires |s.log| > 0
    ensures ApplyAll(s, Expand(step), stamp).log == Transcript(s.log, [step], stamp)
  {
    assert [step][1..] == [];
    match step
    case Type(t) => TypeClears(s, t, stamp);
    case UserMsg(t) => UserMsgAppends(s, t, stamp);
    case AiMsg(rep) => AiMsgAppends(s, rep, stamp);
    case PatchLast(p) => PatchLastRewrites(s, p, stamp);
    case ShowProfile(id) => assert ApplyAll(s, Expand(step), stamp).log == s.log;
    case HideProfile => assert ApplyAll(s, Expand(step), stamp).log == s.log;
    case Sleep(ms) => assert ApplyAll(s, Expand(step), stamp).log == s.log;
  }

  /** The interpreter agrees with the step-level transcript: playing a whole script
      leaves exactly the messages the steps describe. */
  lemma {:induction false} CompileLog(s: Scene, steps: seq<Step>, stamp: Stamp)
    requires |s.log| > 0
    ensures ApplyAll(s, Compile(steps), stamp).log == Transcript(s.log, steps, stamp)
    decreases |steps|
  {
    if |steps| > 0 {
      ApplyAllConcat(s, Expand(steps[0]), Compile(steps[1..]), stamp);
      var mid := ApplyAll(s, Expand(steps[0]), stamp);
      ExpandLog(s, steps[0], stamp);
      CompileLog(mid, steps[1..], stamp);
    }
  }

  /** The messages and rewrites a step carries respect the pipeline invariant. */
  predicate StepSound(step: Step) {
    match step
    case AiMsg(rep) => OptTasksSound(rep.tasks)
    case PatchLast(p) => PatchSound(p)
    case _ => true
  }

  lemma {:induction false} RevealsHarmless(text: string)
    ensures forall j :: 0 <= j < |Reveals(text)| ==> Reveals(text)[j].Reveal? || Reveals(text)[j] == Delay(30)
    decreases |text|
  {
    if |text| > 0 {
      RevealsHarmless(text[1..]);
      var rest := Reveals(text[1..]);
      assert forall j :: 2 <= j < |Reveals(text)| ==> Reveals(text)[j] == rest[j - 2];
    }
  }

  predicate InstrSound(i: Instr) {
    match i
    case PostReply(rep) => OptTasksSound(rep.tasks)
    case Rewrite(p) => PatchSound(p)
    case _ => true
  }

  predicate ScriptSound(steps: seq<Step>) {
    forall j :: 0 <= j < |steps| ==> StepSound(steps[j])
  }

  lemma ScriptSoundConcat(a: seq<Step>, b: seq<Step>)
    requires ScriptSound(a) && ScriptSound(b)
    ensures ScriptSound(a + b)
  {
    forall j | 0 <= j < |a + b| ensures StepSound((a + b)[j]) {
      if j >= |a| {
        assert (a + b)[j] == b[j - |a|];
      }
    }
  }

  lemma {:induction false} CompileSound(steps: seq<Step>)
    requires ScriptSound(steps)
    ensures forall j :: 0 <= j < |Compile(steps)| ==> InstrSound(Compile(steps)[j])
    decreases |steps|
  {
    if |steps| > 0 {
      CompileSound(steps[1..]);
      var e := Expand(steps[0]);
      assert StepSound(steps[0]);
      if steps[0].Type? {
        RevealsHarmless(steps[0].text);
      }
      assert forall j :: 0 <= j < |e| ==> InstrSound(e[j]);
    }
  }

  /** Sound primitives keep every task list in the log sound, at every point of the run. */
  lemma {:induction false} ApplyAllSound(s: Scene, prog: seq<Instr>, stamp: Stamp)
    requires |s.log| > 0 && LogSound(s.log)
    requires forall j :: 0 <= j < |prog| ==> InstrSound(prog[j])
    ensures LogSound(ApplyAll(s, prog, stamp).log)
    decreases |prog|
  {
    if |prog| > 0 {
      assert InstrSound(prog[0]);
      match prog[0] {
        case PostUser(t) => Store.AppendKeepsSound(s.log, Plain(stamp, User, t));
        case PostReply(rep) => Store.AppendKeepsSound(s.log, FromReply(stamp, rep));
        case Rewrite(p) => Store.PatchKeepsLogSound(s.log, p);
        case _ =>
      }
      ApplyAllSound(Effect(s, prog[0], stamp), prog[1..], stamp);
    }
  }
}

=== FILE: store.dfy ===
/** The conversation log: append at the tail, rewrite the last entry, or start over from one message. */
module Store {
  import opened Messages

  /** `setMessages(prev => [...prev, m])` */
  function Append(log: seq<Message>, m: Message): (r: seq<Message>)
    ensures |r| == |log| + 1
    ensures r[..|log|] == log
    ensures r[|log|] == m
  {
    log + [m]
  }

  /** `newMsgs[newMsgs.length - 1] = updater(newMsgs[newMsgs.length - 1])`.
      The source has no guard for an empty log; every log the assistant keeps starts with a greeting. */
  function PatchLast(log: seq<Message>, update: Message -> Message): (r: seq<Message>)
    requires |log| > 0
    ensures |r| == |log|
    ensures r[..|log| - 1] == log[..|log| - 1]
    ensures r[|log| - 1] == update(log[|log| - 1])
  {
    log[|log| - 1 := update(log[|log| - 1])]
  }

  /** `setMessages([seed])` */
  function Reset(seed: Message): (r: seq<Message>)
    ensures |r| == 1 && r[0] == seed
  {
    [seed]
  }

  /** Patching a one-message log rewrites that message. */
  lemma PatchSingle(m: Message, update: Message -> Message)
    ensures PatchLast([m], update) == [update(m)]
  {
  }

  /** Appending keeps every earlier entry in place. */
  lemma AppendKeepsEntries(log: seq<Message>, m: Message, i: int)
    requires 0 <= i < |log|
    ensures Append(log, m)[i] == log[i]
  {
  }

  lemma AppendKeepsSound(log: seq<Message>, m: Message)
    requires LogSound(log) && MessageSound(m)
    ensures LogSound(Append(log, m))
  {
  }

  lemma PatchKeepsLogSound(log: seq<Message>, p: Patch)
    requires |log| > 0 && LogSound(log) && PatchSound(p)
    ensures LogSound(PatchLast(log, m => ApplyPatch(m, p)))
  {
    var r := PatchLast(log, m => ApplyPatch(m, p));
    forall i | 0 <= i < |r| ensures MessageSound(r[i]) {
      if i < |log| - 1 {
        assert r[i] == r[..|log| - 1][i] == log[i];
      } else {
        PatchKeepsSound(log[i], p);
      }
    }
  }
}

=== FILE: tabs.dfy ===
/** The chat page's tab bar: the active tab is read off the current pathname, and choosing a
    tab navigates to that tab's path. */
module Tabs {
  import opened Wrappers
  import opened Text

  const TabIds := {"chat", "tasks", "audience"}

  /** `activeTab`: 'tasks' wins over 'audience', and anything else is the chat. */
  function ActiveTab(path: string): (tab: string)
    ensures tab in TabIds
  {
    if Contains(path, "tasks") then "tasks"
    else if Contains(path, "audience") then "audience"
    else "chat"
  }

  /** `setActiveTab(tab)`: the path it navigates to, if any. */
  function TabPath(tab: string): (path: Option<string>)
    ensures path.Some? <==> tab in TabIds
  {
    if tab == "chat" then Some("/chat")
    else if tab == "tasks" then Some("/tasks")
    else if tab == "audience" then Some("/audience")
    else None
  }

  /** The tab chosen for a path, stated with occurrences: a path mentioning 'tasks' shows the
      task tab even when it also mentions 'audience', and a path mentioning neither shows the chat. */
  lemma ActiveTabSpec(path: string)
    ensures ActiveTab(path) == "tasks" <==> exists i :: OccursAt(path, "tasks", i)
    ensures ActiveTab(path) == "audience" <==>
      (!exists i :: OccursAt(path, "tasks", i)) && exists i :: OccursAt(path, "audience", i)
    ensures ActiveTab(path) == "chat" <==>
      (!exists i :: OccursAt(path, "tasks", i)) && !exists i :: OccursAt(path, "audience", i)
  {
    ContainsMeansOccurs(path, "tasks");
    ContainsMeansOccurs(path, "audience");
  }

  /** Each of the three paths selects its own tab. */
  lemma PathsSelectTheirTabs()
    ensures ActiveTab("/chat") == "chat"
    ensures ActiveTab("/tasks") == "tasks"
    ensures ActiveTab("/audience") == "audience"
  {
    assert OccursAt("/tasks", "tasks", 1);
    ContainsMeansOccurs("/tasks", "tasks");
    assert OccursAt("/audience", "audience", 1);
    ContainsMeansOccurs("/audience", "audience");
    Absent("/audience", "tasks");
    ContainsMeansOccurs("/chat", "audience");
    ContainsMeansOccurs("/chat", "tasks");
  }

  /** A string whose first character never occurs in `s` is not contained in `s`. */
  lemma {:induction false} Absent(s: string, k: string)
    requires |k| > 0 && forall j :: 0 <= j < |s| ==> s[j] != k[0]
    ensures !Contains(s, k)
    decreases |s|
  {
    if |s| > 0 {
      Absent(s[1..], k);
      assert !(k <= s) by {
        assert s[0] != k[0];
      }
    }
  }

  /** Choosing a tab and reading the tab back off the path it navigates to gives the same tab. */
  lemma TabRoundTrip(tab: string)
    requires tab in TabIds
    ensures TabPath(tab).Some? && ActiveTab(TabPath(tab).value) == tab
  {
    PathsSelectTheirTabs();
    if tab == "chat" {
      assert TabPath(tab) == Some("/chat");
    } else if tab == "tasks" {
      assert TabPath(tab) == Some("/tasks");
    } else {
      assert TabPath(tab) == Some("/audience");
    }
  }
}

=== FILE: text.dfy ===
/** The handful of JavaScript string operations the assistant relies on:
    `includes`, `split(' ')` / `join(' ')`, `trimStart` and `trim`. */
module Text {

  /** `s.includes(k)`, written as a scan: `k` is a prefix of `s` or of one of its suffixes. */
  predicate Contains(s: string, k: string)
    decreases |s|
  {
    k <= s || (|s| > 0 && Contains(s[1..], k))
  }

  /** Reference reading of `includes`: some window of `s` spells `k`. */
  ghost predicate OccursAt(s: string, k: string, i: int) {
    0 <= i && i + |k| <= |s| && s[i..i + |k|] == k
  }

  lemma {:induction false} ContainsMeansOccurs(s: string, k: string)
    ensures Contains(s, k) <==> exists i :: OccursAt(s, k, i)
    decreases |s|
  {
    if |s| > 0 {
      ContainsMeansOccurs(s[1..], k);
    }
    if k <= s {
      assert OccursAt(s, k, 0);
    }
    if |s| > 0 && Contains(s[1..], k) {
      var i :| OccursAt(s[1..], k, i);
      OccursShift(s, k, i);
    }
    if exists i :: OccursAt(s, k, i) {
      var i :| OccursAt(s, k, i);
      if i == 0 {
        assert s[..|k|] == k;
      } else {
        OccursShift(s, k, i - 1);
      }
    }
  }

  /** A window of `s[1..]` is the window one further along in `s`. */
  lemma OccursShift(s: string, k: string, i: int)
    requires |s| > 0 && 0 <= i
    ensures OccursAt(s[1..], k, i) <==> OccursAt(s, k, i + 1)
  {
    if i + |k| <= |s| - 1 {
      assert s[1..][i..i + |k|] == s[i + 1..i + 1 + |k|];
    }
  }

  /** The characters `String.prototype.trim` treats as white space
      (ECMAScript WhiteSpace and LineTerminator). */
  predicate IsWhite(c: char) {
    || c == ' ' || c == '\t' || c == '\n' || c == '\r' || c == '\U{000B}' || c == '\U{000C}'
    || c == '\U{00A0}' || c == '\U{1680}' || ('\U{2000}' <= c <= '\U{200A}')
    || c == '\U{2028}' || c == '\U{2029}' || c == '\U{202F}' || c == '\U{205F}'
    || c == '\U{3000}' || c == '\U{FEFF}'
  }

  predicate AllWhite(s: string) {
    forall i :: 0 <= i < |s| ==> IsWhite(s[i])
  }

  /** `s.trimStart()` */
  function TrimStart(s: string): (r: string)
    ensures |r| <= |s| && r == s[|s| - |r|..]
    ensures AllWhite(s[..|s| - |r|])
    ensures |r| > 0 ==> !IsWhite(r[0])
    decreases |s|
  {
    if |s| > 0 && IsWhite(s[0]) then
      var r := TrimStart(s[1..]);
      assert s[..|s| - |r|] == [s[0]] + s[1..][..|s| - 1 - |r|];
      r
    else s
  }

  /** `s.trimEnd()` */
  function TrimEnd(s: string): (r: string)
    ensures |r| <= |s| && r == s[..|r|]
    ensures AllWhite(s[|r|..])
    ensures |r| > 0 ==> !IsWhite(r[|r| - 1])
    decreases |s|
  {
    if |s| > 0 && IsWhite(s[|s| - 1]) then
      var r := TrimEnd(s[..|s| - 1]);
      assert s[|r|..] == s[..|s| - 1][|r|..] + [s[|s| - 1]];
      r
    else s
  }

  /** `s.trim()` */
  function Trim(s: string): (r: string)
    ensures |r| <= |s|
    ensures |r| > 0 ==> !IsWhite(r[0]) && !IsWhite(r[|r| - 1])
  {
    TrimEnd(TrimStart(s))
  }

  /** What `trim` keeps is one contiguous piece of `s`, starting where `trimStart` starts, with
      only white space before and after it. */
  lemma {:induction false} TrimInfix(s: string)
    ensures var i := |s| - |TrimStart(s)|;
      && i + |Trim(s)| <= |s| && s[i..i + |Trim(s)|] == Trim(s)
      && AllWhite(s[..i]) && AllWhite(s[i + |Trim(s)|..])
  {
    TrimParts(s);
    WhiteAround(s, TrimStart(s), Trim(s));
  }

  /** `trim` is `trimEnd` after `trimStart`, seen through their contracts. */
  lemma {:induction false} TrimParts(s: string)
    ensures var t := TrimStart(s); var r := Trim(s);
      && |t| <= |s| && t == s[|s| - |t|..] && AllWhite(s[..|s| - |t|])
      && |r| <= |t| && r == t[..|r|] && AllWhite(t[|r|..])
  {
    assert Trim(s) == TrimEnd(TrimStart(s));
  }

  /** A prefix `r` of a suffix `t` of `s`, with white space cut off before `t` and after `r`,
      sits in `s` between two white runs. */
  lemma WhiteAround(s: string, t: string, r: string)
    requires |t| <= |s| && t == s[|s| - |t|..] && AllWhite(s[..|s| - |t|])
    requires |r| <= |t| && r == t[..|r|] && AllWhite(t[|r|..])
    ensures var i := |s| - |t|;
      && i + |r| <= |s| && s[i..i + |r|] == r
      && AllWhite(s[..i]) && AllWhite(s[i + |r|..])
  {
    var i := |s| - |t|;
    assert s[i + |r|..] == t[|r|..];
  }

  /** `trim` yields the empty string exactly when `s` is all white space. */
  lemma TrimEmpty(s: string)
    ensures Trim(s) == "" <==> AllWhite(s)
  {
    var t := TrimStart(s);
    var i := |s| - |t|;
    assert s == s[..i] + t;
    assert t[0..] == t;
    assert |t| > 0 ==> t[0] == s[i];
    assert |t| == 0 ==> s[..i] == s;
  }

  /** `ws.join(' ')` */
  function Join(ws: seq<string>): string {
    if |ws| == 0 then ""
    else if |ws| == 1 then ws[0]
    else ws[0] + " " + Join(ws[1..])
  }

  predicate NoSpace(w: string) {
    forall i :: 0 <= i < |w| ==> w[i] != ' '
  }

  /** `s.split(' ')`: the words between single spaces, empty words included. */
  function Split(s: string): (ws: seq<string>)
    ensures |ws| >= 1
    ensures forall i :: 0 <= i < |ws| ==> NoSpace(ws[i])
    ensures Join(ws) == s
    decreases |s|
  {
    if |s| == 0 then [""]
    else if s[0] == ' ' then
      var rest := Split(s[1..]);
      assert s == "" + " " + Join(rest);
      [""] + rest
    else
      var rest := Split(s[1..]);
      var ws := [[s[0]] + rest[0]] + rest[1..];
      assert ws[1..] == rest[1..];
      ws
  }

  /** Splitting undoes joining, for words without spaces. */
  lemma {:induction false} SplitJoin(ws: seq<string>)
    requires |ws| >= 1
    requires forall i :: 0 <= i < |ws| ==> NoSpace(ws[i])
    ensures Split(Join(ws)) == ws
    decreases |ws|, |ws[0]|
  {
    if |ws| == 1 {
      NoSpaceSplit(ws[0]);
    } else if |ws[0]| == 0 {
      var tail := ws[1..];
      assert Join(ws) == " " + Join(tail);
      SplitJoin(tail);
      assert (" " + Join(tail))[1..] == Join(tail);
    } else {
      var ws' := [ws[0][1..]] + ws[1..];
      assert NoSpace(ws'[0]);
      assert forall i :: 1 <= i < |ws'| ==> ws'[i] == ws[i];
      SplitJoin(ws');
      assert ws'[1..] == ws[1..];
      assert Join(ws) == [ws[0][0]] + Join(ws');
      assert Join(ws)[1..] == Join(ws');
      assert [ws[0][0]] + ws'[0] == ws[0];
    }
  }

  lemma {:induction false} NoSpaceSplit(w: string)
    requires NoSpace(w)
    ensures Split(w) == [w]
    decreases |w|
  {
    if |w| > 0 {
      NoSpaceSplit(w[1..]);
    }
  }

  /** `s.split(' ').pop() || ''`: the text after the last space. */
  function LastWord(s: string): string {
    var ws := Split(s);
    ws[|ws| - 1]
  }

  /** `s` without its last word: the earlier words joined back, with the space before the last word. */
  function Head(s: string): (h: string)
    ensures h + LastWord(s) == s
  {
    HeadOf(Split(s))
  }

  /** The join of all but the last of `ws`, with the space that separated the last one. */
  function HeadOf(ws: seq<string>): (h: string)
    requires |ws| >= 1
    ensures h + ws[|ws| - 1] == Join(ws)
  {
    if |ws| == 1 then ""
    else
      var init := ws[..|ws| - 1];
      assert ws == init + [ws[|ws| - 1]];
      JoinSnoc(init, ws[|ws| - 1]);
      Join(init) + " "
  }

  lemma {:induction false} JoinSnoc(ws: seq<string>, w: string)
    requires |ws| >= 1
    ensures Join(ws + [w]) == Join(ws) + " " + w
    decreases |ws|
  {
    if |ws| == 1 {
      assert ws + [w] == [ws[0], w];
    } else {
      assert (ws + [w])[1..] == ws[1..] + [w];
      JoinSnoc(ws[1..], w);
    }
  }

  /** The last word holds no space, and what precedes it is empty or ends in a space. */
  lemma LastWordShape(s: string)
    ensures NoSpace(LastWord(s))
    ensures Head(s) == "" || Head(s)[|Head(s)| - 1] == ' '
  {
  }
}

=== FILE: wrappers.dfy ===
/** Small value wrappers shared by the rest of the model. */
module Wrappers {

  /** An optional value, standing for a TypeScript field that may be `undefined`. */
  datatype Option<+T> = None | Some(value: T) {
    function GetOr(default: T): T {
      match this
      case Some(v) => v
      case None => default
    }
  }

  /** An object-spread override of one optional field:
      leave it as it is, set it to `undefined`, or give it a new value. */
  datatype Update<+T> = Keep | Clear | Set(value: T) {
    function Over(current: Option<T>): Option<T> {
      match this
      case Keep => current
      case Clear => None
      case Set(v) => Some(v)
    }
  }

  /** Either a value or a failure that the source would raise as an uncaught exception. */
  datatype Result<+R, +E> = Success(value: R) | Failure(error: E)
}
